=== FILE: README.md ===
# Instrumented sort engine, modelled in Dafny

This project models the sort engine of a sorting visualiser
(`src/logic/sortingAlgorithms.ts`). The engine holds seven in-place sorts over
a number array: bubble, insertion, merge, quick, heap, selection and bogo
sort. While they run they report to their caller with two callbacks:
`onCompare(i, j)` before a comparison decides what happens next, and
`onSwap(i, j)` when positions of the array are written.

How the model is built:

- **The array.** It is a `seq<int>` value. Every operation takes the array
  it starts from and returns the array it leaves.
- **The callbacks.** Their calls become a trace, `seq<Event>`, returned next
  to the array (module `Events`).
- **Exchange sorts.** Bubble, insertion, quick, heap, selection and bogo
  sort write the array only by exchanging two positions, and report
  `onSwap(i, j)` for exactly that exchange. Each of them therefore
  promises `r == Replay(a, trace)`: performing the trace's exchanges, in
  order, on the input rebuilds the output (module `Traces`). That links
  every reported event to what the array actually went through, and the
  multiset of the output follows from it. Replaying the trace also gives
  each reported exchange an array to be judged against, which lets further
  separate promises be stated: for bubble, insertion and selection sort,
  "only exchanges that repair an inversion" (`OnlyInversionSwaps`), and for
  bubble sort also the converse, that every comparison finding its pair out
  of order is answered at once by their exchange
  (`Bubble.SwapsExactlyInversions`); for heap sort's `heapify` and the loop
  that builds the heap, "only exchanges that lift a strictly larger child
  above its parent" (`OnlyPromotions`). Each of these is proved from the
  comparison the sort itself makes before the exchange.
- **Merge sort.** Its `merge` copies the array into a snapshot. It then
  writes position `k` from snapshot position `src` and reports
  `onSwap(k, src)`, which is a placement and not an exchange. Module `Merge`
  states this placement reading of its trace: the `x`-th placement writes
  position `start + x`, and writes there the snapshot's value at the
  reported source. It also states the result against a reference merge of
  two sequences, `MergeSeqs`, which takes the left value on ties, and it
  states that the merge is stable.

Modules follow the source: `Bubble`, `Insertion`, `Merge`, `Quick`, `Heap`,
`Selection`, `Bogo`. They rest on shared definitions in `Events`, `Seqs`
(sortedness, exchange, windows) and `Traces` (replay).

## Model

| member | source | states |
|---|---|---|
| Traces.ReplayMultiset | src/logic/sortingAlgorithms.ts:17-18 | performing a trace's exchanges on an array keeps its multiset of values, so every exchange sort returns a permutation of its input |
| Traces.SortedInputNoSwaps | src/logic/sortingAlgorithms.ts:16-18 | a trace whose every exchange repairs an inversion contains no exchange at all when the input is already sorted |
| Bubble.Pass | src/logic/sortingAlgorithms.ts:13-21 | one inner pass over `[0, m)` reports `onCompare(j, j + 1)` for every `j < m - 1`, in increasing `j` and no other comparison, each comparison followed directly by the exchange of `(j, j + 1)` exactly when it finds the pair out of order (so every exchange repairs an inversion and no inversion looked at is left alone), and leaves the largest value of the window at `m - 1` |
| Bubble.PassExtendsSuffix | src/logic/sortingAlgorithms.ts:12-13 | after the pass over `[0, m)` the sorted suffix starts one position earlier and holds values no smaller than any before it |
| Bubble.BubbleSort | src/logic/sortingAlgorithms.ts:10-22 | the result is sorted, a permutation of the input and the replay of the trace; every index is in the array; exactly `n(n-1)/2` comparisons are reported, and they are the same pairs in the same order whatever the values (pass `k` compares `(0, 1)` to `(n - k - 2, n - k - 1)`); exchanges are adjacent and follow their comparison; a comparison is answered by an exchange exactly when it finds its pair out of order, so a sorted input gets no exchange |
| Bubble.ExactConcat | src/logic/sortingAlgorithms.ts:12-21 | when each pass answers exactly the inversions it finds, so do the passes run one after another |
| Insertion.Sink | src/logic/sortingAlgorithms.ts:35-43 | the value at `i` moves down to the first position `p` whose left neighbour is not greater, every value it passes shifts right by one, and the trace is one `onCompare(x, x - 1)`, `onSwap(x, x - 1)` pair per place moved |
| Insertion.InsertStepOrder | src/logic/sortingAlgorithms.ts:34-43 | sinking `r[i]` into the sorted prefix `r[0..i]` leaves `r[0..i + 1]` sorted |
| Insertion.PairsCount | src/logic/sortingAlgorithms.ts:37-40 | in a trace of compare/exchange pairs there are as many comparisons as exchanges and the trace is twice as long |
| Insertion.SortedInputSilent | src/logic/sortingAlgorithms.ts:36-40 | on a sorted input insertion sort reports nothing: the comparison that stops the inner loop is never reported |
| Insertion.InsertionSort | src/logic/sortingAlgorithms.ts:32-44 | the result is sorted, a permutation of the input and the replay of the trace; the trace is the rounds `i = 1 .. n - 1` in order, round `i` being the value at `i` sinking some `d <= i` places (`onCompare(x, x - 1), onSwap(x, x - 1)` for `x = i` down to `i - d + 1`); each exchange repairs an inversion; a sorted input gives an empty trace |
| Insertion.SinksSnoc | src/logic/sortingAlgorithms.ts:34-43 | one more round of the outer loop appends the trace of one more value sinking, starting from the next position |
| Merge.MergeSeqsSorted | src/logic/sortingAlgorithms.ts:69-103 | the merge of two sorted sequences is sorted |
| Merge.MergeSeqsMultiset | src/logic/sortingAlgorithms.ts:69-103 | the merge holds exactly the values of both sequences |
| Merge.HeadStep | src/logic/sortingAlgorithms.ts:70-84 | one step of the first loop reports `onCompare(i, j)` and then `onSwap(k, i)` when the left head is not greater (advancing `i`) or `onSwap(k, j)` otherwise (advancing `j`), and extends the written prefix of the merge by the value placed |
| Merge.HeadsDone | src/logic/sortingAlgorithms.ts:69-103 | when the first loop stops one run is used up, and what is left of the merge is just what is left of the other run |
| Merge.MergeHeads | src/logic/sortingAlgorithms.ts:69-85 | the first loop stops with exactly one run used up, one comparison reported per value placed, and the written prefix equal to the start of the merge |
| Merge.DrainLeft | src/logic/sortingAlgorithms.ts:87-94 | the second loop copies the rest of the left run without comparisons and keeps the written prefix a prefix of the merge |
| Merge.DrainRight | src/logic/sortingAlgorithms.ts:96-103 | the third loop copies the rest of the right run likewise |
| Merge.MergeRuns | src/logic/sortingAlgorithms.ts:64-103 | `merge(start, mid, end)` writes into `[start, end]` the merge of the two runs (left value first on ties), leaves every other position alone, reports one placement per position in order, each from the snapshot position whose value it wrote, takes each run's values in increasing source order, is stable when the left run is sorted (equal values are placed in increasing source order), and makes at most `end - start` and at least `min(run lengths)` comparisons |
| Merge.MergeSortedRuns | src/logic/sortingAlgorithms.ts:119 | merging two sorted neighbouring runs leaves their union sorted and a permutation of what was there, after one placement per value, and keeps equal values in their order |
| Merge.MergeSortRange | src/logic/sortingAlgorithms.ts:115-121 | `mergeSortHelper(start, end)` sorts `[start, end]`, keeps the multiset, leaves the rest alone, reports only indices of `[start, end]`, places at least every value of a window of two or more, and does nothing on a window of one or none |
| Merge.MergeSort | src/logic/sortingAlgorithms.ts:123 | the whole array ends sorted and a permutation of the input; arrays of length at most one get no event |
| Quick.Partition | src/logic/sortingAlgorithms.ts:134-158 | returns `p` in `[low, high]` with the old `arr[high]` at `p`, values strictly below it before `p` and values at least it after `p` up to `high`; positions outside `[low, high]` are unchanged; exactly `high - low` comparisons, all against `high`, and `p - low + 1` exchanges, the last one moving the pivot |
| Quick.QuickSortRange | src/logic/sortingAlgorithms.ts:160-167 | `quickSortHelper(low, high)` sorts `[low, high]`, keeps the multiset, leaves the rest alone and reports only indices of `[low, high]`; it does nothing when `low >= high` |
| Quick.QuickSort | src/logic/sortingAlgorithms.ts:169 | the whole array ends sorted, a permutation of the input and the replay of the trace |
| Heap.RootIsMax | src/logic/sortingAlgorithms.ts:221-223 | the root of a max-heap holds its largest value, which the extraction exchanges to the end |
| Heap.SiftMoves | src/logic/sortingAlgorithms.ts:193-209 | when a child is larger than the root, the larger child is exchanged up and the heap is broken only below it |
| Heap.Heapify | src/logic/sortingAlgorithms.ts:182-215 | if the heap property holds in `[0, size)` except at `root`, `heapify(size, root)` restores it; it touches only `[root, size)`, keeps the multiset, reports only indices of `[root, size)` (never a child at or past `size`), and every exchange lifts a strictly larger child above its parent |
| Heap.BuildMaxHeap | src/logic/sortingAlgorithms.ts:217-219 | after the build loop the whole array is a max-heap |
| Heap.ExtractStepOrder | src/logic/sortingAlgorithms.ts:221-228 | each extraction step grows the sorted suffix by one value that is no smaller than any value left in the heap, and leaves `[0, i)` a max-heap |
| Heap.HeapSort | src/logic/sortingAlgorithms.ts:173-229 | the result is sorted, a permutation of the input and the replay of the trace; every index is in the array; at least `n - 1` exchanges are reported; an array of at most one value gets no event |
| Selection.MinIndexFrom | src/logic/sortingAlgorithms.ts:242-251 | the scan of round `i` finds the first position of the smallest value of `arr[i..]` and reports `onCompare(m, j)` for each later `j`, where `m` is the smallest position found so far |
| Selection.SelectStepOrder | src/logic/sortingAlgorithms.ts:253-258 | exchanging the smallest value into position `i` grows the sorted prefix by a value no greater than any after it |
| Selection.PlaceReplay | src/logic/sortingAlgorithms.ts:253-256 | the exchange is made and reported only when the smallest value is not already at `i`, and then it repairs an inversion |
| Selection.SelectRoundsStep | src/logic/sortingAlgorithms.ts:241-258 | a round's scan, pairing the smallest position met so far with each later position, followed by the exchange of the first smallest value into `i` when it is elsewhere, extends the round-by-round trace |
| Selection.SelectionSort | src/logic/sortingAlgorithms.ts:239-260 | the result is sorted, a permutation of the input and the replay of the trace; the trace is the rounds `i = 0 .. n - 2` in order, round `i` comparing `(minIndex so far, j)` for every `j` from `i + 1` to `n - 1` on the array as it then stood and then exchanging `(i, m)` exactly when the first smallest position `m` is not `i`; exactly `n(n-1)/2` comparisons; fewer than `n` exchanges; a sorted input gets none |
| Bogo.IsSorted | src/logic/sortingAlgorithms.ts:270-277 | `isSorted` answers true exactly when the array is non-decreasing |
| Bogo.Shuffle | src/logic/sortingAlgorithms.ts:279-286 | step `x` of the shuffle exchanges position `n - 1 - x` with a position at or below it, for `n - 1` steps; the result is the replay of the trace and a permutation of the input |
| Bogo.Round | src/logic/sortingAlgorithms.ts:288-295 | one pass of the loop, run on an unsorted array, extends the trace by one block: `onCompare(0, n - 1)` followed by a whole shuffle, and the array is the replay of the longer trace |
| Bogo.RoundsCounts | src/logic/sortingAlgorithms.ts:279-295 | a trace of whole rounds compares only the two ends, names only positions of the array, and holds one comparison and `n - 1` exchanges per round |
| Bogo.BogoSort | src/logic/sortingAlgorithms.ts:288-295 | the loop leaves a sorted array exactly when it stopped on its own; the result is a permutation of the input and the replay of the trace; the trace is `rounds` blocks, each `onCompare(0, n - 1)` followed by one shuffle and each begun on an array that was not sorted, so every comparison is of the two ends and there are `rounds * (n - 1)` exchanges; a sorted input is left as it is, with no event |
| Events.TotalCompares | src/logic/sortingAlgorithms.ts:12-13 | the rounds of bubble and selection sort make `(n-1) + (n-2) + ... + 1 = n(n-1)/2` comparisons |

## Left out

- Timing and rendering are left out: `sleep`, every `await`, and `onRender`. They do not change the array or the order of the reports.
- `Math.random()` in the shuffle is modelled as a free choice of `j` with `0 <= j <= i`. The uniformity of the shuffle is a matter of probability and is not modelled.
- Bogo sort's loop need not terminate. `Bogo.BogoSort` takes a round budget `fuel` and stops after `fuel` rounds; it reports whether it stopped on its own (`sorted`). Arrays that stay unsorted after `fuel` rounds are covered only up to that point.
- JavaScript numbers (floating point, `NaN`, `-0`) are modelled as unbounded integers. The sorts only compare values, with `<`, `<=` and `>`. Index arithmetic is on small non-negative integers, where `Math.floor((start + end) / 2)` equals Dafny's integer division.
- The arrays are values rather than shared mutable objects. The callbacks are modelled as an event trace, not as calls into caller code.
- The user interface files (`src/App.tsx`, `src/components/SortingVisualizer.tsx`, `src/main.tsx`) are not part of this model. They hold the rendering, the random array generation, and a call at `src/App.tsx:132` that passes the callbacks in the wrong order.
- The sorts are not equally quiet on a sorted input. Bubble, insertion and selection sort make no exchange on a sorted input, and this is proved. Quick sort always reports the closing exchange of every partition, even one of a position with itself (`Quick.Partition` states `p - low + 1` exchanges). Heap sort always reports its `n - 1` extraction exchanges. Merge sort reports a placement for every value of every merge. None of this is a fault of the code; it is what the code does.
- Insertion sort reports a comparison only when an exchange follows. The comparison that ends each inner loop is made but not reported. The model follows the code (`Insertion.SortedInputSilent`).
- Heap.Heapify: the number of comparisons per call (at most two per level) is not stated, nor which pairs they name; the model states only that every reported index lies in `[root, size)` and that every exchange lifts a strictly larger child.
- Merge.MergeSortRange: the total number of comparisons (at most about `n log n`) is not stated; each merge's own bounds are stated in `Merge.MergeRuns`.
- Merge.MergeSort: the replay reading of the trace is not stated for merge sort, because its `onSwap` reports placements from a snapshot, not exchanges; `Merge.MergeRuns` states the placement reading instead.

=== FILE: bogo.dfy ===
/** Bogo sort: while the array is not sorted, report one comparison of the
    two ends and shuffle the whole array.  `Math.random` is modelled as a
    free choice of the exchange partner in each step of the shuffle; the
    otherwise unbounded loop runs for at most `fuel` rounds. */
module Bogo {
  import opened Events
  import opened Seqs
  import opened Traces

  /** `isSorted`: scans neighbouring pairs and stops at the first one out of
      order. */
  method IsSorted(s: seq<int>) returns (b: bool)
    ensures b <==> Sorted(s)
  {
    var i := 0;
    while i < |s| - 1
      invariant 0 <= i <= |s| || (|s| == 0 && i == 0)
      invariant |s| > 0 ==> i < |s| && SortedBetween(s, 0, i + 1)
      decreases |s| - i
    {
      if s[i] > s[i + 1] {
        return false;
      }
      i := i + 1;
    }
    return true;
  }

  /** The notifications of one Fisher-Yates shuffle of `n` values: step `x`
      exchanges position `n - 1 - x` with a position at or below it. */
  predicate ShuffleTrace(n: int, t: seq<Event>) {
    && |t| == (if n > 1 then n - 1 else 0)
    && forall x :: 0 <= x < |t| ==> t[x].Swap? && t[x].i == n - 1 - x && 0 <= t[x].j <= t[x].i
  }

  /** A shuffle trace only exchanges positions of the array, and only exchanges. */
  lemma ShuffleShape(n: int, t: seq<Event>)
    requires ShuffleTrace(n, t)
    ensures AllWithin(t, 0, n - 1)
    ensures CompareCount(t) == 0 && SwapCount(t) == |t|
  {
    assert forall x :: 0 <= x < |t| ==> !t[x].Compare?;
    SwapsOnly(t);
  }

  lemma {:induction false} SwapsOnly(t: seq<Event>)
    requires forall x :: 0 <= x < |t| ==> !t[x].Compare?
    ensures CompareCount(t) == 0 && SwapCount(t) == |t|
    decreases |t|
  {
    if t != [] {
      var front, e := t[..|t| - 1], t[|t| - 1];
      assert t == front + [e];
      SwapsOnly(front);
      Snoc(front, e);
    }
  }

  /** `shuffle`: for `i` from the last position down to 1, exchanges `i` with
      a position `j` drawn from `0..i`, reporting `onSwap(i, j)`. */
  method Shuffle(s: seq<int>) returns (r: seq<int>, trace: seq<Event>)
    ensures ShuffleTrace(|s|, trace)
    ensures r == Replay(s, trace)
    ensures multiset(r) == multiset(s)
  {
    r, trace := s, [];
    var i := |s| - 1;
    while i > 0
      invariant |r| == |s| && -1 <= i < |s|
      invariant |s| > 0 ==> 0 <= i
      invariant |trace| == |s| - 1 - i
      invariant forall x :: 0 <= x < |trace| ==>
        trace[x].Swap? && trace[x].i == |s| - 1 - x && 0 <= trace[x].j <= trace[x].i
      invariant r == Replay(s, trace)
      decreases i
    {
      var j :| 0 <= j <= i;
      ReplaySnoc(s, trace, Swap(i, j));
      r, trace, i := Exchange(r, i, j), trace + [Swap(i, j)], i - 1;
    }
    ReplayMultiset(s, trace);
  }

  /** One round of the main loop: the comparison of the two ends, then a
      shuffle, replays to the shuffled array. */
  lemma RoundReplay(a: seq<int>, r: seq<int>, t: seq<Event>, r': seq<int>, sh: seq<Event>)
    requires |a| >= 2 && r == Replay(a, t) && r' == Replay(r, sh)
    ensures r' == Replay(a, t + [Compare(0, |a| - 1)] + sh)
  {
    var c := Compare(0, |a| - 1);
    ReplaySnoc(a, t, c);
    ReplayConcat(a, t + [c], sh);
  }

  /** The trace of `rounds` whole rounds over `n` values: each round is a
      block of the comparison of the two ends followed by one shuffle.
      Fewer than two values are sorted, so no round is run. */
  predicate RoundsTrace(n: int, t: seq<Event>, rounds: nat)
    decreases rounds
  {
    if n < 2 || rounds == 0 then t == [] && (n < 2 ==> rounds == 0)
    else
      && |t| >= n
      && RoundsTrace(n, t[..|t| - n], rounds - 1)
      && t[|t| - n] == Compare(0, n - 1)
      && ShuffleTrace(n, t[|t| - n + 1..])
  }

  /** Every one of the `rounds` blocks of `t` was started on an array that
      was not sorted: the loop only runs while `isSorted()` is false. */
  predicate UnsortedRounds(a: seq<int>, t: seq<Event>, rounds: nat)
    decreases rounds
  {
    if |a| < 2 || rounds == 0 then true
    else
      && |t| >= |a|
      && !Sorted(Replay(a, t[..|t| - |a|]))
      && UnsortedRounds(a, t[..|t| - |a|], rounds - 1)
  }

  /** A round appends one more block. */
  lemma RoundsStep(n: int, t: seq<Event>, rounds: nat, sh: seq<Event>)
    requires n >= 2 && RoundsTrace(n, t, rounds) && ShuffleTrace(n, sh)
    ensures RoundsTrace(n, t + [Compare(0, n - 1)] + sh, rounds + 1)
  {
    var u := t + [Compare(0, n - 1)] + sh;
    assert u[..|u| - n] == t;
    assert u[|u| - n] == Compare(0, n - 1);
    assert u[|u| - n + 1..] == sh;
  }

  /** In a whole number of rounds, every comparison is of the two ends,
      every reported index is a position of the array, and each round
      reports one comparison and `n - 1` exchanges. */
  lemma {:induction false} RoundsCounts(n: int, t: seq<Event>, rounds: nat)
    requires RoundsTrace(n, t, rounds)
    ensures forall x :: 0 <= x < |t| && t[x].Compare? ==> t[x] == Compare(0, n - 1)
    ensures AllWithin(t, 0, n - 1)
    ensures CompareCount(t) == rounds
    ensures SwapCount(t) == rounds * (if n < 2 then 0 else n - 1)
    decreases rounds
  {
    if n >= 2 && rounds > 0 {
      var k := |t| - n;
      var front, sh := t[..k], t[k + 1..];
      assert t == front + [t[k]] + sh;
      RoundsCounts(n, front, rounds - 1);
      ShuffleShape(n, sh);
      forall x | 0 <= x < |t| && t[x].Compare?
        ensures t[x] == Compare(0, n - 1)
      {
        if x < k {
          assert t[x] == front[x];
        }
      }
      Snoc(front, t[k]);
      Concat(front + [t[k]], sh);
      WithinConcat(front, [t[k]], 0, n - 1);
      WithinConcat(front + [t[k]], sh, 0, n - 1);
      assert rounds * (n - 1) == (rounds - 1) * (n - 1) + (n - 1);
    }
  }

  /** One pass of the main loop: report the comparison of the two ends,
      then shuffle.  The trace grows by one round's block. */
  method Round(a: seq<int>, r: seq<int>, t: seq<Event>, rounds: nat) returns (r': seq<int>, t': seq<Event>)
    requires |a| >= 2 && r == Replay(a, t) && RoundsTrace(|a|, t, rounds)
    requires !Sorted(r) && UnsortedRounds(a, t, rounds)
    ensures |r'| == |a| && r' == Replay(a, t')
    ensures RoundsTrace(|a|, t', rounds + 1)
    ensures UnsortedRounds(a, t', rounds + 1)
    ensures |t'| > |t| && t'[..|t|] == t && t'[|t|] == Compare(0, |a| - 1)
  {
    var sh;
    r', sh := Shuffle(r);
    RoundReplay(a, r, t, r', sh);
    RoundsStep(|a|, t, rounds, sh);
    t' := t + [Compare(0, |a| - 1)] + sh;
    assert t'[..|t|] == t;
    assert t'[..|t'| - |a|] == t;
  }

  /** `bogoSort`, cut off after `fuel` rounds: the array it leaves is sorted
      exactly when the loop stopped on its own, which it does at once on a
      sorted input.  (`== true` keeps each trace invariant one fact for the
      verifier.) */
  method BogoSort(a: seq<int>, fuel: nat) returns (r: seq<int>, trace: seq<Event>, rounds: nat, sorted: bool)
    ensures sorted <==> Sorted(r)
    ensures rounds <= fuel && (sorted || rounds == fuel)
    ensures multiset(r) == multiset(a)
    ensures r == Replay(a, trace)
    ensures AllWithin(trace, 0, |a| - 1)
    ensures CompareCount(trace) == rounds
    ensures RoundsTrace(|a|, trace, rounds)
    ensures UnsortedRounds(a, trace, rounds)
    ensures forall x :: 0 <= x < |trace| && trace[x].Compare? ==> trace[x] == Compare(0, |a| - 1)
    ensures SwapCount(trace) == rounds * (if |a| < 2 then 0 else |a| - 1)
    ensures Sorted(a) ==> rounds == 0 && trace == [] && r == a
  {
    r, trace, rounds := a, [], 0;
    sorted := IsSorted(r);
    while !sorted && rounds < fuel
      invariant sorted <==> Sorted(r)
      invariant rounds <= fuel && |r| == |a|
      invariant r == Replay(a, trace)
      invariant RoundsTrace(|a|, trace, rounds) == true
      invariant UnsortedRounds(a, trace, rounds) == true
      invariant rounds == 0 ==> trace == [] && r == a
      invariant Sorted(a) ==> rounds == 0
      decreases fuel - rounds
    {
      r, trace := Round(a, r, trace, rounds);
      rounds := rounds + 1;
      sorted := IsSorted(r);
    }
    ReplayMultiset(a, trace);
    RoundsCounts(|a|, trace, rounds);
  }
}

=== FILE: bubble.dfy ===
/** Bubble sort: repeated passes over adjacent pairs, each pass one shorter
    than the last, with no early exit when a pass makes no exchange. */
module Bubble {
  import opened Events
  import opened Seqs
  import opened Traces

  /** Every `onSwap` of `t` names an adjacent pair `(x, x + 1)` and comes
      right after the `onCompare` of that same pair. */
  predicate AdjacentSwapsAfterCompare(t: seq<Event>)
    decreases |t|
  {
    t == [] ||
    (&& AdjacentSwapsAfterCompare(t[..|t| - 1])
     && (t[|t| - 1].Swap? ==>
           && t[|t| - 1].j == t[|t| - 1].i + 1
           && 2 <= |t| && t[|t| - 2] == Compare(t[|t| - 1].i, t[|t| - 1].j)))
  }

  lemma AdjacentSnoc(t: seq<Event>, e: Event)
    requires AdjacentSwapsAfterCompare(t)
    requires e.Swap? ==> e.j == e.i + 1 && 0 < |t| && t[|t| - 1] == Compare(e.i, e.j)
    ensures AdjacentSwapsAfterCompare(t + [e])
  {
    assert (t + [e])[..|t|] == t;
  }

  lemma {:induction false} AdjacentConcat(t1: seq<Event>, t2: seq<Event>)
    requires AdjacentSwapsAfterCompare(t1) && AdjacentSwapsAfterCompare(t2)
    requires t2 != [] ==> t2[0].Compare?
    ensures AdjacentSwapsAfterCompare(t1 + t2)
    decreases |t2|
  {
    if t2 == [] {
      assert t1 + t2 == t1;
    } else {
      var front, e := t2[..|t2| - 1], t2[|t2| - 1];
      assert t2 == front + [e];
      assert t1 + t2 == (t1 + front) + [e];
      if front != [] {
        assert front[0] == t2[0];
      }
      AdjacentConcat(t1, front);
      if e.Swap? {
        assert |front| >= 1;
        assert (t1 + front)[|t1 + front| - 1] == front[|front| - 1];
      }
      AdjacentSnoc(t1 + front, e);
    }
  }

  /** The comparison `t[k]`, made on the array as replayed up to it, finds
      its pair out of order. */
  predicate FindsInversion(s: seq<int>, t: seq<Event>, k: int)
    requires 0 <= k < |t|
  {
    var u := Replay(s, t[..k]);
    t[k].Compare? && 0 <= t[k].i < |u| && 0 <= t[k].j < |u| && u[t[k].i] > u[t[k].j]
  }

  /** A comparison is followed at once by an exchange exactly when it finds
      its pair out of order: no inversion that is looked at is left alone. */
  predicate SwapsExactlyInversions(s: seq<int>, t: seq<Event>) {
    forall k :: 0 <= k < |t| && t[k].Compare? ==> (FindsInversion(s, t, k) <==> k + 1 < |t| && t[k + 1].Swap?)
  }

  /** Appending a comparison, followed by an exchange exactly when it finds
      an inversion, keeps every inversion answered. */
  lemma ExactStep(s: seq<int>, t: seq<Event>, c: Event, tail: seq<Event>)
    requires SwapsExactlyInversions(s, t) && c.Compare?
    requires tail == [] || (|tail| == 1 && tail[0].Swap?)
    requires FindsInversion(s, t + [c], |t|) <==> tail != []
    ensures SwapsExactlyInversions(s, t + [c] + tail)
  {
    var u := t + [c] + tail;
    forall k | 0 <= k < |u| && u[k].Compare?
      ensures FindsInversion(s, u, k) <==> k + 1 < |u| && u[k + 1].Swap?
    {
      if k < |t| {
        assert u[..k] == t[..k];
        assert u[k] == t[k];
        assert FindsInversion(s, u, k) == FindsInversion(s, t, k);
        assert FindsInversion(s, t, k) <==> k + 1 < |t| && t[k + 1].Swap?;
        if k + 1 == |t| {
          assert u[k + 1] == c;
        } else {
          assert u[k + 1] == t[k + 1];
        }
      } else {
        assert k == |t|;
        assert u[..k] == t == (t + [c])[..|t|];
        assert u[k] == c == (t + [c])[|t|];
        assert FindsInversion(s, u, k) == FindsInversion(s, t + [c], |t|);
      }
    }
  }

  /** A comparison of the first trace keeps its answer when the second,
      which starts with a comparison, is sent after it. */
  lemma ExactConcatLeft(s: seq<int>, t1: seq<Event>, t2: seq<Event>, k: int)
    requires SwapsExactlyInversions(s, t1) && (t2 != [] ==> t2[0].Compare?)
    requires 0 <= k < |t1| && t1[k].Compare?
    ensures FindsInversion(s, t1 + t2, k) <==> k + 1 < |t1 + t2| && (t1 + t2)[k + 1].Swap?
  {
    var u := t1 + t2;
    assert u[..k] == t1[..k];
    assert u[k] == t1[k];
    assert FindsInversion(s, u, k) == FindsInversion(s, t1, k);
    assert FindsInversion(s, t1, k) <==> k + 1 < |t1| && t1[k + 1].Swap?;
    if k + 1 < |t1| {
      assert u[k + 1] == t1[k + 1];
    } else if t2 != [] {
      assert u[k + 1] == t2[0];
    }
  }

  /** A comparison of the second trace finds what it found when replayed
      from where the first trace left the array. */
  lemma ExactConcatRight(s: seq<int>, t1: seq<Event>, t2: seq<Event>, k: int)
    requires SwapsExactlyInversions(Replay(s, t1), t2)
    requires |t1| <= k < |t1 + t2| && (t1 + t2)[k].Compare?
    ensures FindsInversion(s, t1 + t2, k) <==> k + 1 < |t1 + t2| && (t1 + t2)[k + 1].Swap?
  {
    var u, k2 := t1 + t2, k - |t1|;
    assert u[..k] == t1 + t2[..k2];
    assert u[k] == t2[k2];
    ReplayConcat(s, t1, t2[..k2]);
    assert FindsInversion(s, u, k) == FindsInversion(Replay(s, t1), t2, k2);
    assert t2[k2].Compare?;
    assert FindsInversion(Replay(s, t1), t2, k2) <==> k2 + 1 < |t2| && t2[k2 + 1].Swap?;
    if k + 1 < |u| {
      assert u[k + 1] == t2[k2 + 1];
    }
  }

  /** Two traces that each answer every inversion they find still do when
      the second starts with a comparison and is replayed after the first. */
  lemma ExactConcat(s: seq<int>, t1: seq<Event>, t2: seq<Event>)
    requires SwapsExactlyInversions(s, t1) && SwapsExactlyInversions(Replay(s, t1), t2)
    requires t2 != [] ==> t2[0].Compare?
    ensures SwapsExactlyInversions(s, t1 + t2)
  {
    forall k | 0 <= k < |t1 + t2| && (t1 + t2)[k].Compare?
      ensures FindsInversion(s, t1 + t2, k) <==> k + 1 < |t1 + t2| && (t1 + t2)[k + 1].Swap?
    {
      if k < |t1| {
        ExactConcatLeft(s, t1, t2, k);
      } else {
        ExactConcatRight(s, t1, t2, k);
      }
    }
  }

  /** The comparisons of one pass over `[0, m)`: `(0, 1)`, `(1, 2)`, ...,
      `(m - 2, m - 1)`, whatever the values. */
  function PassCompares(m: int): (c: seq<Event>)
    ensures |c| == if m <= 1 then 0 else m - 1
    ensures forall x :: 0 <= x < |c| ==> c[x] == Compare(x, x + 1)
    decreases m
  {
    if m <= 1 then [] else PassCompares(m - 1) + [Compare(m - 2, m - 1)]
  }

  /** The comparisons of the first `i` rounds over `n` positions: round `k`
      is a pass over `[0, n - k)`. */
  function RoundsCompares(n: int, i: nat): seq<Event> {
    if i == 0 then [] else RoundsCompares(n, i - 1) + PassCompares(n - i + 1)
  }

  /** Ordering facts after the inner loop has visited the pairs `(0, 1)` to
      `(j - 1, j)` of the window `s[0..m]`: the largest value seen so far sits
      at `j`, and nothing outside the window has moved. */
  predicate PassOrder(s: seq<int>, m: int, j: int, r: seq<int>) {
    && 0 <= j < m <= |s|
    && SameOutside(r, s, 0, m)
    && AllAtMost(r, 0, j, r[j])
  }

  /** Notification facts at the same point: `t` rebuilds `r` from `s`, has
      the shape of a pass so far, and exchanges a compared pair exactly when
      it is out of order. */
  predicate PassTrace(s: seq<int>, m: int, j: int, r: seq<int>, t: seq<Event>) {
    && 0 <= j < m <= |s|
    && r == Replay(s, t)
    && PassShape(m, j, t)
    && OnlyInversionSwaps(s, t)
    && SwapsExactlyInversions(s, t)
    && (j == 0 ==> t == [])
  }

  /** One inner step keeps the ordering facts. */
  lemma PassStepOrder(s: seq<int>, m: int, j: int, r: seq<int>, r': seq<int>)
    requires PassOrder(s, m, j, r) && j < m - 1
    requires r' == if r[j] > r[j + 1] then Exchange(r, j, j + 1) else r
    ensures PassOrder(s, m, j + 1, r')
  {
  }

  /** One inner step extends the replay and keeps every exchange a repair. */
  lemma PassStepReplay(s: seq<int>, m: int, j: int, r: seq<int>, t: seq<Event>, r': seq<int>, t': seq<Event>)
    requires PassTrace(s, m, j, r, t) && j < m - 1 && |r| == |s|
    requires r[j] > r[j + 1] ==> r' == Exchange(r, j, j + 1) && t' == t + [Compare(j, j + 1)] + [Swap(j, j + 1)]
    requires r[j] <= r[j + 1] ==> r' == r && t' == t + [Compare(j, j + 1)]
    ensures r' == Replay(s, t')
    ensures OnlyInversionSwaps(s, t')
  {
    Step(s, t, Compare(j, j + 1));
    if r[j] > r[j + 1] {
      Step(s, t + [Compare(j, j + 1)], Swap(j, j + 1));
    }
  }

  /** One inner step exchanges the compared pair exactly when it is out of
      order. */
  lemma PassStepExact(s: seq<int>, m: int, j: int, r: seq<int>, t: seq<Event>, t': seq<Event>)
    requires 0 <= j < m - 1 && m <= |s| && r == Replay(s, t) && SwapsExactlyInversions(s, t)
    requires r[j] > r[j + 1] ==> t' == t + [Compare(j, j + 1)] + [Swap(j, j + 1)]
    requires r[j] <= r[j + 1] ==> t' == t + [Compare(j, j + 1)]
    ensures SwapsExactlyInversions(s, t')
  {
    var c := Compare(j, j + 1);
    assert (t + [c])[..|t|] == t;
    if r[j] > r[j + 1] {
      ExactStep(s, t, c, [Swap(j, j + 1)]);
    } else {
      ExactStep(s, t, c, []);
      assert t + [c] + [] == t';
    }
  }

  /** The shape of the trace after the inner loop has visited the pairs
      `(0, 1)` to `(j - 1, j)`: it stays in the window, holds the comparisons
      of those pairs in order, starts with a comparison and sends each
      exchange right after the comparison of its pair. */
  predicate PassShape(m: int, j: int, t: seq<Event>) {
    && AllWithin(t, 0, m - 1)
    && CompareCount(t) == j
    && ComparesOf(t) == PassCompares(j + 1)
    && AdjacentSwapsAfterCompare(t)
    && (t != [] ==> t[0].Compare?)
  }

  /** Sending `onCompare(j, j + 1)` appends the next comparison of the pass. */
  lemma ShapeAfterCompare(m: int, j: int, t: seq<Event>)
    requires 0 <= j < m - 1 && PassShape(m, j, t)
    ensures PassShape(m, j + 1, t + [Compare(j, j + 1)])
  {
    Snoc(t, Compare(j, j + 1));
    ComparesSnoc(t, Compare(j, j + 1));
    AdjacentSnoc(t, Compare(j, j + 1));
  }

  /** Sending `onSwap(j, j + 1)` right after the comparison of that pair
      keeps the shape. */
  lemma ShapeAfterSwap(m: int, j: int, u: seq<Event>)
    requires 0 <= j < m - 1 && PassShape(m, j + 1, u)
    requires u != [] && u[|u| - 1] == Compare(j, j + 1)
    ensures PassShape(m, j + 1, u + [Swap(j, j + 1)])
  {
    Snoc(u, Swap(j, j + 1));
    ComparesSnoc(u, Swap(j, j + 1));
    AdjacentSnoc(u, Swap(j, j + 1));
  }

  /** One inner step keeps the shape of the trace. */
  lemma PassStepShape(m: int, j: int, t: seq<Event>, t': seq<Event>, swapped: bool)
    requires 0 <= j < m - 1 && PassShape(m, j, t)
    requires t' == t + [Compare(j, j + 1)] + (if swapped then [Swap(j, j + 1)] else [])
    ensures PassShape(m, j + 1, t')
  {
    ShapeAfterCompare(m, j, t);
    if swapped {
      ShapeAfterSwap(m, j, t + [Compare(j, j + 1)]);
    } else {
      assert t' == t + [Compare(j, j + 1)];
    }
  }

  /** One inner step keeps the notification facts: compare `(j, j + 1)`, then
      exchange the pair when `r[j] > r[j + 1]`. */
  lemma PassStepTrace(s: seq<int>, m: int, j: int, r: seq<int>, t: seq<Event>, r': seq<int>, t': seq<Event>)
    requires PassTrace(s, m, j, r, t) && j < m - 1 && |r| == |s|
    requires r[j] > r[j + 1] ==> r' == Exchange(r, j, j + 1) && t' == t + [Compare(j, j + 1)] + [Swap(j, j + 1)]
    requires r[j] <= r[j + 1] ==> r' == r && t' == t + [Compare(j, j + 1)]
    ensures PassTrace(s, m, j + 1, r', t')
  {
    PassStepReplay(s, m, j, r, t, r', t');
    PassStepShape(m, j, t, t', r[j] > r[j + 1]);
    PassStepExact(s, m, j, r, t, t');
  }

  /** One pass of the inner loop over `s[0..m]`: compares every adjacent pair
      from the left and exchanges it when it is out of order, which carries
      the largest value of the window to position `m - 1`. */
  method Pass(s: seq<int>, m: int) returns (r: seq<int>, trace: seq<Event>)
    requires 0 < m <= |s|
    ensures SameOutside(r, s, 0, m)
    ensures multiset(r) == multiset(s)
    ensures AllAtMost(r, 0, m, r[m - 1])
    ensures r == Replay(s, trace)
    ensures AllWithin(trace, 0, m - 1)
    ensures CompareCount(trace) == m - 1
    ensures ComparesOf(trace) == PassCompares(m)
    ensures |ComparesOf(trace)| == m - 1
    ensures forall x :: 0 <= x < m - 1 ==> ComparesOf(trace)[x] == Compare(x, x + 1)
    ensures AdjacentSwapsAfterCompare(trace)
    ensures OnlyInversionSwaps(s, trace)
    ensures SwapsExactlyInversions(s, trace)
    ensures m == 1 ==> trace == []
    ensures trace != [] ==> trace[0].Compare?
  {
    r, trace := s, [];
    var j := 0;
    while j < m - 1
      invariant PassOrder(s, m, j, r)
      invariant PassTrace(s, m, j, r, trace)
      decreases m - j
    {
      var r', t' := r, trace + [Compare(j, j + 1)];
      if r[j] > r[j + 1] {
        r', t' := Exchange(r, j, j + 1), t' + [Swap(j, j + 1)];
      }
      PassStepOrder(s, m, j, r, r');
      PassStepTrace(s, m, j, r, trace, r', t');
      r, trace, j := r', t', j + 1;
    }
    ReplayMultiset(s, trace);
  }

  /** Ordering facts after `i` complete passes over `a`: the last `i`
      positions hold the `i` largest values, in order. */
  predicate SortOrder(a: seq<int>, i: int, r: seq<int>) {
    && 0 <= i <= |a| == |r|
    && SortedBetween(r, |a| - i, |a|)
    && (0 < i < |a| ==> AllAtMost(r, 0, |a| - i, r[|a| - i]))
  }

  /** Notification facts after `i` complete passes over `a`. */
  predicate SortTrace(a: seq<int>, i: int, r: seq<int>, t: seq<Event>) {
    && 0 <= i <= |a|
    && r == Replay(a, t)
    && AllWithin(t, 0, |a| - 1)
    && CompareCount(t) == RoundCompares(|a|, i)
    && ComparesOf(t) == RoundsCompares(|a|, i)
    && AdjacentSwapsAfterCompare(t)
    && OnlyInversionSwaps(a, t)
    && SwapsExactlyInversions(a, t)
    && (|a| <= 1 ==> t == [])
  }

  /** After a pass over `[0, m)`, the sorted suffix grows by one position. */
  lemma PassExtendsSuffix(r: seq<int>, r': seq<int>, m: int)
    requires 0 < m <= |r|
    requires SortedBetween(r, m, |r|) && (m < |r| ==> AllAtMost(r, 0, m, r[m]))
    requires SameOutside(r', r, 0, m) && multiset(r') == multiset(r)
    requires AllAtMost(r', 0, m, r'[m - 1])
    ensures SortedBetween(r', m - 1, |r'|)
    ensures 1 < m ==> AllAtMost(r', 0, m - 1, r'[m - 1])
  {
    if m < |r| {
      WindowAtMostKept(r', r, 0, m, r[m]);
    }
  }

  /** The trace of a pass appended to the trace of the passes before it. */
  lemma PassExtendsTrace(a: seq<int>, r: seq<int>, t: seq<Event>, r': seq<int>, t': seq<Event>)
    requires r == Replay(a, t) && r' == Replay(r, t')
    requires AdjacentSwapsAfterCompare(t) && AdjacentSwapsAfterCompare(t')
    requires t' != [] ==> t'[0].Compare?
    requires OnlyInversionSwaps(a, t) && OnlyInversionSwaps(r, t')
    ensures r' == Replay(a, t + t')
    ensures CompareCount(t + t') == CompareCount(t) + CompareCount(t')
    ensures ComparesOf(t + t') == ComparesOf(t) + ComparesOf(t')
    ensures AdjacentSwapsAfterCompare(t + t')
    ensures OnlyInversionSwaps(a, t + t')
  {
    ReplayConcat(a, t, t');
    Concat(t, t');
    ComparesConcat(t, t');
    AdjacentConcat(t, t');
    InversionConcat(a, t, t');
  }

  /** A pass over `[0, |a| - i)` appends a trace that keeps the notification facts. */
  lemma SortStepTrace(a: seq<int>, i: int, r: seq<int>, t: seq<Event>, r': seq<int>, t': seq<Event>)
    requires SortTrace(a, i, r, t) && i < |a|
    requires r' == Replay(r, t')
    requires AllWithin(t', 0, |a| - i - 1)
    requires CompareCount(t') == |a| - i - 1
    requires ComparesOf(t') == PassCompares(|a| - i)
    requires AdjacentSwapsAfterCompare(t')
    requires OnlyInversionSwaps(r, t') && SwapsExactlyInversions(r, t')
    requires |a| - i == 1 ==> t' == []
    requires t' != [] ==> t'[0].Compare?
    ensures SortTrace(a, i + 1, r', t + t')
  {
    PassExtendsTrace(a, r, t, r', t');
    ExactConcat(a, t, t');
    Widen(t', 0, |a| - i - 1, 0, |a| - 1);
  }

  /** A pass over `[0, |a| - i)` grows the sorted suffix by one position. */
  lemma SortStepOrder(a: seq<int>, i: int, r: seq<int>, r': seq<int>)
    requires SortOrder(a, i, r) && i < |a|
    requires SameOutside(r', r, 0, |a| - i) && multiset(r') == multiset(r)
    requires AllAtMost(r', 0, |a| - i, r'[|a| - i - 1])
    ensures SortOrder(a, i + 1, r')
  {
    PassExtendsSuffix(r, r', |a| - i);
  }

  /** One outer step: a pass over `[0, |a| - i)`, whose results `r'` and `t'`
      are described as `Pass` promises, keeps both halves of the loop invariant. */
  lemma SortStep(a: seq<int>, i: int, r: seq<int>, t: seq<Event>, r': seq<int>, t': seq<Event>)
    requires SortOrder(a, i, r) && SortTrace(a, i, r, t) && i < |a|
    requires SameOutside(r', r, 0, |a| - i)
    requires multiset(r') == multiset(r)
    requires AllAtMost(r', 0, |a| - i, r'[|a| - i - 1])
    requires r' == Replay(r, t')
    requires AllWithin(t', 0, |a| - i - 1)
    requires CompareCount(t') == |a| - i - 1
    requires ComparesOf(t') == PassCompares(|a| - i)
    requires AdjacentSwapsAfterCompare(t')
    requires OnlyInversionSwaps(r, t') && SwapsExactlyInversions(r, t')
    requires |a| - i == 1 ==> t' == []
    requires t' != [] ==> t'[0].Compare?
    ensures SortOrder(a, i + 1, r') && SortTrace(a, i + 1, r', t + t')
  {
    SortStepOrder(a, i, r, r');
    SortStepTrace(a, i, r, t, r', t');
  }

  /** After `|a|` passes the whole array is sorted and the comparison count
      has its closed form. */
  lemma SortDone(a: seq<int>, r: seq<int>, t: seq<Event>)
    requires SortOrder(a, |a|, r) && SortTrace(a, |a|, r, t)
    ensures Sorted(r)
    ensures multiset(r) == multiset(a)
    ensures CompareCount(t) == |a| * (|a| - 1) / 2
    ensures Sorted(a) ==> SwapCount(t) == 0
  {
    ReplayMultiset(a, t);
    TotalCompares(|a|);
    if Sorted(a) {
      SortedInputNoSwaps(a, t);
    }
  }

  /** Round `i` of the outer loop: one pass over `[0, |a| - i)`. */
  method Round(a: seq<int>, i: int, r: seq<int>, t: seq<Event>) returns (r': seq<int>, t': seq<Event>)
    requires SortOrder(a, i, r) && SortTrace(a, i, r, t) && i < |a|
    ensures SortOrder(a, i + 1, r') && SortTrace(a, i + 1, r', t')
  {
    var u;
    r', u := Pass(r, |a| - i);
    SortStep(a, i, r, t, r', u);
    t' := t + u;
  }

  method BubbleSort(a: seq<int>) returns (r: seq<int>, trace: seq<Event>)
    ensures Sorted(r)
    ensures multiset(r) == multiset(a)
    ensures r == Replay(a, trace)
    ensures AllWithin(trace, 0, |a| - 1)
    ensures CompareCount(trace) == |a| * (|a| - 1) / 2
    ensures ComparesOf(trace) == RoundsCompares(|a|, |a|)
    ensures AdjacentSwapsAfterCompare(trace)
    ensures OnlyInversionSwaps(a, trace)
    ensures SwapsExactlyInversions(a, trace)
    ensures Sorted(a) ==> SwapCount(trace) == 0
    ensures |a| <= 1 ==> trace == []
  {
    r, trace := a, [];
    var i := 0;
    while i < |a|
      invariant SortOrder(a, i, r)
      invariant SortTrace(a, i, r, trace)
      decreases |a| - i
    {
      r, trace := Round(a, i, r, trace);
      i := i + 1;
    }
    SortDone(a, r, trace);
  }
}

=== FILE: events.dfy ===
/** The notifications the sort engine sends its caller while it works.

    Every algorithm reports `onCompare(i, j)` before a comparison decides
    what happens next and `onSwap(i, j)` when it writes positions of the
    array.  The model keeps these notifications, in order, as a trace.
 */
module Events {

  /** One notification: `onCompare(i, j)` or `onSwap(i, j)`. */
  datatype Event = Compare(i: int, j: int) | Swap(i: int, j: int)

  /** Both indices of `e` lie in the inclusive range `[lo, hi]`. */
  predicate Within(e: Event, lo: int, hi: int) {
    lo <= e.i <= hi && lo <= e.j <= hi
  }

  /** Every event of `t` names only positions of `[lo, hi]`. */
  predicate AllWithin(t: seq<Event>, lo: int, hi: int) {
    forall k :: 0 <= k < |t| ==> Within(t[k], lo, hi)
  }

  /** Number of `onCompare` notifications in `t`. */
  function CompareCount(t: seq<Event>): nat
    decreases |t|
  {
    if t == [] then 0
    else CompareCount(t[..|t| - 1]) + (if t[|t| - 1].Compare? then 1 else 0)
  }

  /** The `onSwap` notifications of `t`, in the order they were sent. */
  function SwapsOf(t: seq<Event>): (w: seq<Event>)
    ensures |w| <= |t|
    ensures forall k :: 0 <= k < |w| ==> w[k].Swap?
    decreases |t|
  {
    if t == [] then []
    else SwapsOf(t[..|t| - 1]) + (if t[|t| - 1].Swap? then [t[|t| - 1]] else [])
  }

  /** The `onCompare` notifications of `t`, in the order they were sent. */
  function ComparesOf(t: seq<Event>): (w: seq<Event>)
    ensures |w| <= |t|
    ensures forall k :: 0 <= k < |w| ==> w[k].Compare?
    decreases |t|
  {
    if t == [] then []
    else ComparesOf(t[..|t| - 1]) + (if t[|t| - 1].Compare? then [t[|t| - 1]] else [])
  }

  /** Number of `onSwap` notifications in `t`. */
  function SwapCount(t: seq<Event>): nat {
    |SwapsOf(t)|
  }

  /** How the counters and the swap list grow when one event is sent. */
  lemma Snoc(t: seq<Event>, e: Event)
    ensures CompareCount(t + [e]) == CompareCount(t) + (if e.Compare? then 1 else 0)
    ensures SwapsOf(t + [e]) == SwapsOf(t) + (if e.Swap? then [e] else [])
  {
    assert (t + [e])[..|t|] == t;
  }

  /** Counting and filtering distribute over the concatenation of two traces. */
  lemma {:induction false} Concat(t1: seq<Event>, t2: seq<Event>)
    ensures CompareCount(t1 + t2) == CompareCount(t1) + CompareCount(t2)
    ensures SwapsOf(t1 + t2) == SwapsOf(t1) + SwapsOf(t2)
    decreases |t2|
  {
    if t2 == [] {
      assert t1 + t2 == t1;
    } else {
      var front, e := t2[..|t2| - 1], t2[|t2| - 1];
      assert t2 == front + [e];
      assert t1 + t2 == (t1 + front) + [e];
      Concat(t1, front);
      Snoc(t1 + front, e);
      Snoc(front, e);
    }
  }

  /** How the list of comparisons grows when one event is sent. */
  lemma ComparesSnoc(t: seq<Event>, e: Event)
    ensures ComparesOf(t + [e]) == ComparesOf(t) + (if e.Compare? then [e] else [])
  {
    assert (t + [e])[..|t|] == t;
  }

  /** The comparisons of two traces sent one after the other. */
  lemma {:induction false} ComparesConcat(t1: seq<Event>, t2: seq<Event>)
    ensures ComparesOf(t1 + t2) == ComparesOf(t1) + ComparesOf(t2)
    decreases |t2|
  {
    if t2 == [] {
      assert t1 + t2 == t1;
    } else {
      var front, e := t2[..|t2| - 1], t2[|t2| - 1];
      assert t2 == front + [e];
      assert t1 + t2 == (t1 + front) + [e];
      ComparesConcat(t1, front);
      ComparesSnoc(t1 + front, e);
      ComparesSnoc(front, e);
    }
  }

  /** A trace that lies in `[lo, hi]` also lies in any wider range. */
  lemma Widen(t: seq<Event>, lo: int, hi: int, lo': int, hi': int)
    requires AllWithin(t, lo, hi)
    requires lo' <= lo && hi <= hi'
    ensures AllWithin(t, lo', hi')
  {
  }

  /** Two traces that lie in `[lo, hi]` still do when sent one after the other. */
  lemma WithinConcat(t1: seq<Event>, t2: seq<Event>, lo: int, hi: int)
    requires AllWithin(t1, lo, hi) && AllWithin(t2, lo, hi)
    ensures AllWithin(t1 + t2, lo, hi)
  {
    forall k | 0 <= k < |t1 + t2|
      ensures Within((t1 + t2)[k], lo, hi)
    {
      if k >= |t1| {
        assert (t1 + t2)[k] == t2[k - |t1|];
      }
    }
  }

  /** A trace made only of comparisons: it counts each of them and holds no exchange. */
  lemma {:induction false} OnlyCompares(t: seq<Event>)
    requires forall k :: 0 <= k < |t| ==> t[k].Compare?
    ensures CompareCount(t) == |t| && SwapCount(t) == 0
    decreases |t|
  {
    if t != [] {
      OnlyCompares(t[..|t| - 1]);
    }
  }

  /** Comparisons made by the first `i` rounds of a sort over `n` positions whose
      round `k` compares `n - 1 - k` pairs: `(n - 1) + (n - 2) + ... + (n - i)`. */
  function RoundCompares(n: int, i: nat): int {
    if i == 0 then 0 else RoundCompares(n, i - 1) + (n - i)
  }

  lemma {:induction false} AllRoundCompares(n: nat, i: nat)
    requires i <= n
    ensures 2 * RoundCompares(n, i) == i * (2 * n - i - 1)
  {
    if i > 0 {
      AllRoundCompares(n, i - 1);
    }
  }

  /** Whether the last round (which compares nothing) runs or not, the total
      is `n * (n - 1) / 2`. */
  lemma TotalCompares(n: nat)
    ensures RoundCompares(n, n) == n * (n - 1) / 2
    ensures n > 0 ==> RoundCompares(n, n - 1) == n * (n - 1) / 2
  {
    AllRoundCompares(n, n);
  }
}

=== FILE: heap.dfy ===
/** Heap sort on the implicit binary tree of the array: the children of
    position `k` are `2k + 1` and `2k + 2`.  A max-heap is built bottom-up,
    then the root is exchanged to the end of the shrinking heap and sifted
    down again. */
module Heap {
  import opened Events
  import opened Seqs
  import opened Traces

  /** The parent of position `c > 0` in the implicit tree. */
  function Parent(c: int): int {
    (c - 1) / 2
  }

  /** Every parent-child edge of `s[0..size]` whose parent is at `lo` or
      beyond is in heap order: the parent is at least the child. */
  predicate HeapFrom(s: seq<int>, lo: int, size: int) {
    && 0 <= size <= |s|
    && forall c {:trigger Parent(c)} :: 1 <= c < size && lo <= Parent(c) ==> s[Parent(c)] >= s[c]
  }

  /** As `HeapFrom`, except for the edges leaving position `k`. */
  predicate HeapExcept(s: seq<int>, lo: int, size: int, k: int) {
    && 0 <= size <= |s|
    && forall c {:trigger Parent(c)} :: 1 <= c < size && lo <= Parent(c) && Parent(c) != k ==> s[Parent(c)] >= s[c]
  }

  /** When `k` has a parent inside the heap part, that parent is at least
      each child of `k`: the edge skipped by `HeapExcept` is bridged. */
  predicate ParentAboveChildren(s: seq<int>, lo: int, size: int, k: int)
    requires 0 <= k && size <= |s|
  {
    k > 0 && lo <= Parent(k) ==>
      && (2 * k + 1 < size ==> s[Parent(k)] >= s[2 * k + 1])
      && (2 * k + 2 < size ==> s[Parent(k)] >= s[2 * k + 2])
  }

  /** `largest` is where `heapify` finds the largest of `root` and its
      children: the left child replaces `root` only when strictly greater, the
      right child replaces the winner so far only when strictly greater. */
  predicate IsLargest(s: seq<int>, size: int, root: int, largest: int)
    requires 0 <= root < size <= |s|
  {
    var left, right := 2 * root + 1, 2 * root + 2;
    var l1 := if left < size && s[left] > s[root] then left else root;
    largest == if right < size && s[right] > s[l1] then right else l1
  }

  /** The root of a heap holds its largest value. */
  lemma {:induction false} RootIsMax(s: seq<int>, size: int, k: int)
    requires HeapFrom(s, 0, size) && 0 <= k < size
    ensures s[0] >= s[k]
    decreases k
  {
    if k > 0 {
      RootIsMax(s, size, Parent(k));
    }
  }

  /** When `root` is already the largest, the whole heap part is in order. */
  lemma SiftStops(s: seq<int>, lo: int, size: int, root: int)
    requires 0 <= lo <= root < size <= |s|
    requires HeapExcept(s, lo, size, root) && IsLargest(s, size, root, root)
    ensures HeapFrom(s, lo, size)
  {
    forall c | 1 <= c < size && lo <= Parent(c)
      ensures s[Parent(c)] >= s[c]
    {
      if Parent(c) == root {
        assert c == 2 * root + 1 || c == 2 * root + 2;
      }
    }
  }

  /** Exchanging `root` with its larger child moves the one broken spot down
      to that child. */
  lemma SiftMoves(s: seq<int>, lo: int, size: int, root: int, largest: int)
    requires 0 <= lo <= root < size <= |s|
    requires HeapExcept(s, lo, size, root) && ParentAboveChildren(s, lo, size, root)
    requires IsLargest(s, size, root, largest) && largest != root
    ensures root < largest < size
    ensures largest == 2 * root + 1 || largest == 2 * root + 2
    ensures s[largest] > s[root]
    ensures HeapExcept(Exchange(s, root, largest), lo, size, largest)
    ensures ParentAboveChildren(Exchange(s, root, largest), lo, size, largest)
  {
    var r := Exchange(s, root, largest);
    forall c | 1 <= c < size && lo <= Parent(c) && Parent(c) != largest
      ensures r[Parent(c)] >= r[c]
    {
      var p := Parent(c);
      if p == root {
        assert c == 2 * root + 1 || c == 2 * root + 2;
      } else if c == root {
        assert s[p] >= s[2 * root + 1] || 2 * root + 1 >= size;
      }
    }
    assert Parent(largest) == root;
    assert Parent(2 * largest + 1) == largest && Parent(2 * largest + 2) == largest;
  }

  /** `e`, applied to `s`, exchanges a parent with one of its children that
      holds a strictly greater value. */
  predicate PromotesChild(s: seq<int>, e: Event) {
    e.Swap? ==>
      && 0 <= e.i && (e.j == 2 * e.i + 1 || e.j == 2 * e.i + 2) && e.j < |s|
      && s[e.j] > s[e.i]
  }

  /** Every exchange of `t`, replayed from `s`, moves a strictly greater child
      up over its parent. */
  predicate OnlyPromotions(s: seq<int>, t: seq<Event>)
    decreases |t|
  {
    t == [] ||
    (OnlyPromotions(s, t[..|t| - 1]) && PromotesChild(Replay(s, t[..|t| - 1]), t[|t| - 1]))
  }

  lemma PromotionsSnoc(s: seq<int>, t: seq<Event>, e: Event)
    ensures OnlyPromotions(s, t + [e]) <==> OnlyPromotions(s, t) && PromotesChild(Replay(s, t), e)
  {
    assert (t + [e])[..|t|] == t;
  }

  lemma {:induction false} PromotionsConcat(s: seq<int>, t1: seq<Event>, t2: seq<Event>)
    requires OnlyPromotions(s, t1)
    requires OnlyPromotions(Replay(s, t1), t2)
    ensures OnlyPromotions(s, t1 + t2)
    decreases |t2|
  {
    if t2 == [] {
      assert t1 + t2 == t1;
    } else {
      var front, e := t2[..|t2| - 1], t2[|t2| - 1];
      assert t2 == front + [e];
      assert t1 + t2 == (t1 + front) + [e];
      PromotionsConcat(s, t1, front);
      PromotionsSnoc(s, t1 + front, e);
      ReplayConcat(s, t1, front);
    }
  }

  lemma {:induction false} ComparesPromoteNothing(s: seq<int>, t: seq<Event>)
    requires forall k :: 0 <= k < |t| ==> t[k].Compare?
    ensures OnlyPromotions(s, t)
    decreases |t|
  {
    if t != [] {
      ComparesPromoteNothing(s, t[..|t| - 1]);
    }
  }

  /** The comparisons `heapify` reports before it decides. */
  function HeapifyCompares(s: seq<int>, size: int, root: int): seq<Event>
    requires 0 <= root < size <= |s|
  {
    var left, right := 2 * root + 1, 2 * root + 2;
    var l1 := if left < size && s[left] > s[root] then left else root;
    (if left < size then [Compare(left, root)] else [])
      + (if right < size then [Compare(right, l1)] else [])
  }

  lemma ComparesShape(s: seq<int>, size: int, root: int)
    requires 0 <= root < size <= |s|
    ensures forall k :: 0 <= k < |HeapifyCompares(s, size, root)| ==> HeapifyCompares(s, size, root)[k].Compare?
    ensures AllWithin(HeapifyCompares(s, size, root), root, size - 1)
  {
  }

  /** The trace of a sift that exchanges `root` with `largest` and continues
      below with the trace `t2`. */
  lemma SiftLog(s: seq<int>, size: int, root: int, largest: int, r2: seq<int>, t2: seq<Event>)
    requires 0 <= root < largest < size <= |s| && s[largest] > s[root]
    requires r2 == Replay(Exchange(s, root, largest), t2)
    requires AllWithin(t2, largest, size - 1)
    requires OnlyPromotions(Exchange(s, root, largest), t2)
    requires largest == 2 * root + 1 || largest == 2 * root + 2
    ensures r2 == Replay(s, HeapifyCompares(s, size, root) + [Swap(root, largest)] + t2)
    ensures AllWithin(HeapifyCompares(s, size, root) + [Swap(root, largest)] + t2, root, size - 1)
    ensures OnlyPromotions(s, HeapifyCompares(s, size, root) + [Swap(root, largest)] + t2)
  {
    var pre := HeapifyCompares(s, size, root);
    var w := Swap(root, largest);
    ComparesShape(s, size, root);
    ComparesOnly(s, pre);
    SiftReplay(s, pre, root, largest, t2);
    SiftPromotions(s, pre, root, largest, t2);
    Widen(t2, largest, size - 1, root, size - 1);
  }

  lemma SiftReplay(s: seq<int>, pre: seq<Event>, root: int, largest: int, t2: seq<Event>)
    requires 0 <= root < largest < |s| && Replay(s, pre) == s
    ensures Replay(s, pre + [Swap(root, largest)] + t2) == Replay(Exchange(s, root, largest), t2)
  {
    Step(s, pre, Swap(root, largest));
    ReplayConcat(s, pre + [Swap(root, largest)], t2);
  }

  lemma SiftPromotions(s: seq<int>, pre: seq<Event>, root: int, largest: int, t2: seq<Event>)
    requires 0 <= root < largest < |s| && s[largest] > s[root]
    requires largest == 2 * root + 1 || largest == 2 * root + 2
    requires Replay(s, pre) == s && forall k :: 0 <= k < |pre| ==> pre[k].Compare?
    requires OnlyPromotions(Exchange(s, root, largest), t2)
    ensures OnlyPromotions(s, pre + [Swap(root, largest)] + t2)
  {
    var w := Swap(root, largest);
    ComparesPromoteNothing(s, pre);
    Step(s, pre, w);
    PromotionsSnoc(s, pre, w);
    PromotionsConcat(s, pre + [w], t2);
  }

  /** `heapify(size, root)`: sifts the value at `root` down the heap part
      `s[0..size]`, exchanging it with its larger child while that child is
      strictly greater.  `lo` names the part of the tree that is already in
      heap order apart from the edges at `root`; it does not influence what
      is computed. */
  method Heapify(s: seq<int>, size: int, root: int, ghost lo: int) returns (r: seq<int>, trace: seq<Event>)
    requires 0 <= lo <= root < size <= |s|
    requires HeapExcept(s, lo, size, root) && ParentAboveChildren(s, lo, size, root)
    ensures HeapFrom(r, lo, size)
    ensures SameOutside(r, s, root, size)
    ensures multiset(r) == multiset(s)
    ensures r == Replay(s, trace)
    ensures AllWithin(trace, root, size - 1)
    ensures OnlyPromotions(s, trace)
    decreases size - root
  {
    var largest := root;
    var left, right := 2 * root + 1, 2 * root + 2;
    if left < size && s[left] > s[largest] {
      largest := left;
    }
    if right < size && s[right] > s[largest] {
      largest := right;
    }
    if largest != root {
      SiftMoves(s, lo, size, root, largest);
      var r2, t2 := Heapify(Exchange(s, root, largest), size, largest, lo);
      SiftLog(s, size, root, largest, r2, t2);
      ExchangeMultiset(s, root, largest);
      r, trace := r2, HeapifyCompares(s, size, root) + [Swap(root, largest)] + t2;
    } else {
      SiftStops(s, lo, size, root);
      ComparesShape(s, size, root);
      ComparesOnly(s, HeapifyCompares(s, size, root));
      ComparesPromoteNothing(s, HeapifyCompares(s, size, root));
      r, trace := s, HeapifyCompares(s, size, root);
    }
  }

  /** A heap built from position `i + 1` on, extended by sifting down at `i`. */
  lemma BuildStep(a: seq<int>, i: int, r: seq<int>, t: seq<Event>, r': seq<int>, t': seq<Event>)
    requires 0 <= i < |a| == |r|
    requires r == Replay(a, t) && AllWithin(t, 0, |a| - 1)
    requires r' == Replay(r, t') && AllWithin(t', i, |a| - 1)
    ensures r' == Replay(a, t + t') && AllWithin(t + t', 0, |a| - 1)
  {
    ReplayConcat(a, t, t');
    Widen(t', i, |a| - 1, 0, |a| - 1);
  }

  /** The first loop of `heapSort`: sifts down every position that has a
      child, from `n / 2 - 1` back to `0`. */
  method BuildMaxHeap(a: seq<int>) returns (r: seq<int>, trace: seq<Event>)
    ensures HeapFrom(r, 0, |a|)
    ensures r == Replay(a, trace)
    ensures AllWithin(trace, 0, |a| - 1)
    ensures OnlyPromotions(a, trace)
    ensures |a| <= 1 ==> trace == []
  {
    r, trace := a, [];
    var i := |a| / 2 - 1;
    while i >= 0
      invariant -1 <= i < |a| && |r| == |a|
      invariant i <= |a| / 2 - 1
      invariant |a| <= 1 ==> trace == []
      invariant HeapFrom(r, i + 1, |a|)
      invariant r == Replay(a, trace) && AllWithin(trace, 0, |a| - 1)
      invariant OnlyPromotions(a, trace)
      decreases i
    {
      var r', t' := Heapify(r, |a|, i, i);
      BuildStep(a, i, r, trace, r', t');
      PromotionsConcat(a, trace, t');
      r, trace, i := r', trace + t', i - 1;
    }
  }

  /** Ordering facts of the second loop of `heapSort` before the round for
      `i`: `r[0..i + 1]` is a heap, `r[i + 1..]` holds the largest values in
      order. */
  predicate ExtractOrder(a: seq<int>, i: int, r: seq<int>) {
    && |r| == |a| && -1 <= i < |a| && (|a| > 0 ==> 0 <= i)
    && HeapFrom(r, 0, i + 1)
    && SortedBetween(r, i + 1, |a|)
    && (0 <= i && i + 1 < |a| ==> AllAtMost(r, 0, i + 1, r[i + 1]))
  }

  /** Notification facts of the second loop of `heapSort`. */
  predicate ExtractLog(a: seq<int>, i: int, r: seq<int>, t: seq<Event>) {
    && r == Replay(a, t)
    && AllWithin(t, 0, |a| - 1)
    && SwapCount(t) >= |a| - 1 - i
  }

  /** Exchanging the root of the heap `r[0..i + 1]` with position `i` puts the
      largest value of the heap part just before the sorted tail. */
  lemma ExtractSwap(a: seq<int>, i: int, r: seq<int>)
    requires ExtractOrder(a, i, r) && 0 < i
    ensures HeapExcept(Exchange(r, 0, i), 0, i, 0)
    ensures SortedBetween(Exchange(r, 0, i), i, |a|)
    ensures AllAtMost(Exchange(r, 0, i), 0, i, Exchange(r, 0, i)[i])
  {
    forall k | 0 <= k < i + 1
      ensures r[k] <= r[0]
    {
      RootIsMax(r, i + 1, k);
    }
  }

  lemma ExtractStepOrder(a: seq<int>, i: int, r: seq<int>, r': seq<int>)
    requires ExtractOrder(a, i, r) && 0 < i
    requires HeapFrom(r', 0, i)
    requires SameOutside(r', Exchange(r, 0, i), 0, i)
    requires multiset(r') == multiset(Exchange(r, 0, i))
    ensures ExtractOrder(a, i - 1, r')
  {
    var r1 := Exchange(r, 0, i);
    ExtractSwap(a, i, r);
    WindowAtMostKept(r', r1, 0, i, r1[i]);
  }

  lemma ExtractStepLog(a: seq<int>, i: int, r: seq<int>, t: seq<Event>, r': seq<int>, t': seq<Event>)
    requires ExtractLog(a, i, r, t) && 0 < i < |a| == |r|
    requires r' == Replay(Exchange(r, 0, i), t') && AllWithin(t', 0, i - 1)
    ensures ExtractLog(a, i - 1, r', t + [Swap(0, i)] + t')
  {
    Step(a, t, Swap(0, i));
    ReplayConcat(a, t + [Swap(0, i)], t');
    Concat(t + [Swap(0, i)], t');
    Widen(t', 0, i - 1, 0, |a| - 1);
  }

  lemma HeapSortDone(a: seq<int>, i: int, r: seq<int>, t: seq<Event>)
    requires ExtractOrder(a, i, r) && ExtractLog(a, i, r, t) && i <= 0
    ensures Sorted(r)
    ensures multiset(r) == multiset(a)
    ensures |a| > 0 ==> SwapCount(t) >= |a| - 1
  {
    ReplayMultiset(a, t);
  }

  method HeapSort(a: seq<int>) returns (r: seq<int>, trace: seq<Event>)
    ensures Sorted(r)
    ensures multiset(r) == multiset(a)
    ensures r == Replay(a, trace)
    ensures AllWithin(trace, 0, |a| - 1)
    ensures |a| > 0 ==> SwapCount(trace) >= |a| - 1
    ensures |a| <= 1 ==> trace == []
  {
    r, trace := BuildMaxHeap(a);
    var i := |a| - 1;
    while i > 0
      invariant ExtractOrder(a, i, r)
      invariant ExtractLog(a, i, r, trace)
      invariant |a| <= 1 ==> trace == []
      decreases i
    {
      var r1 := Exchange(r, 0, i);
      ExtractSwap(a, i, r);
      var r', t' := Heapify(r1, i, 0, 0);
      ExtractStepOrder(a, i, r, r');
      ExtractStepLog(a, i, r, trace, r', t');
      r, trace, i := r', trace + [Swap(0, i)] + t', i - 1;
    }
    HeapSortDone(a, i, r, trace);
  }
}

=== FILE: insertion.dfy ===
/** Insertion sort: each value `arr[i]` sinks to the left, one adjacent
    exchange at a time, while its left neighbour is strictly greater. */
module Insertion {
  import opened Events
  import opened Seqs
  import opened Traces

  /** `t` is a run of pairs `onCompare(x, x - 1), onSwap(x, x - 1)`: every
      comparison that is reported is followed by the exchange of that pair. */
  predicate CompareSwapPairs(t: seq<Event>)
    decreases |t|
  {
    t == [] ||
    (&& 2 <= |t|
     && t[|t| - 2].Compare?
     && t[|t| - 2].j == t[|t| - 2].i - 1
     && t[|t| - 1] == Swap(t[|t| - 2].i, t[|t| - 2].j)
     && CompareSwapPairs(t[..|t| - 2]))
  }

  /** The notifications of one value sinking `d` places from position `i`. */
  function SinkTrace(i: int, d: nat): seq<Event> {
    if d == 0 then []
    else SinkTrace(i, d - 1) + [Compare(i - d + 1, i - d)] + [Swap(i - d + 1, i - d)]
  }

  /** The notifications of the outer loop, round by round: in round `k` the
      value at `k + 1` sinks `ds[k]` places. */
  function SinksTrace(ds: seq<nat>): seq<Event>
    decreases |ds|
  {
    if ds == [] then [] else SinksTrace(ds[..|ds| - 1]) + SinkTrace(|ds|, ds[|ds| - 1])
  }

  /** Each value sinks at most to position 0. */
  predicate SinkDepths(ds: seq<nat>) {
    forall k :: 0 <= k < |ds| ==> ds[k] <= k + 1
  }

  /** One more round appends the trace of one more sinking value. */
  lemma SinksSnoc(ds: seq<nat>, d: nat)
    requires SinkDepths(ds) && d <= |ds| + 1
    ensures SinksTrace(ds + [d]) == SinksTrace(ds) + SinkTrace(|ds| + 1, d)
    ensures SinkDepths(ds + [d])
  {
    assert (ds + [d])[..|ds|] == ds;
  }

  lemma PairsSnoc(t: seq<Event>, x: int)
    requires CompareSwapPairs(t)
    ensures CompareSwapPairs(t + [Compare(x, x - 1)] + [Swap(x, x - 1)])
  {
    var u := t + [Compare(x, x - 1)] + [Swap(x, x - 1)];
    assert u[..|u| - 2] == t;
  }

  lemma {:induction false} PairsConcat(t1: seq<Event>, t2: seq<Event>)
    requires CompareSwapPairs(t1) && CompareSwapPairs(t2)
    ensures CompareSwapPairs(t1 + t2)
    decreases |t2|
  {
    if t2 == [] {
      assert t1 + t2 == t1;
    } else {
      var front := t2[..|t2| - 2];
      var c, w := t2[|t2| - 2], t2[|t2| - 1];
      assert t2 == front + [c] + [w];
      assert t1 + t2 == (t1 + front) + [c] + [w];
      PairsConcat(t1, front);
      PairsSnoc(t1 + front, c.i);
    }
  }

  /** In a run of compare/swap pairs there are as many comparisons as
      exchanges, and the run is empty exactly when it holds no exchange. */
  lemma {:induction false} PairsCount(t: seq<Event>)
    requires CompareSwapPairs(t)
    ensures CompareCount(t) == SwapCount(t)
    ensures |t| == 2 * SwapCount(t)
    decreases |t|
  {
    if t != [] {
      var front := t[..|t| - 2];
      var c, w := t[|t| - 2], t[|t| - 1];
      assert t == front + [c] + [w];
      PairsCount(front);
      Snoc(front, c);
      Snoc(front + [c], w);
    }
  }

  /** A sinking value's notifications are compare/swap pairs on `[i - d, i]`. */
  lemma {:induction false} SinkTraceShape(i: int, d: nat)
    ensures CompareSwapPairs(SinkTrace(i, d))
    ensures AllWithin(SinkTrace(i, d), i - d, i)
  {
    if d > 0 {
      SinkTraceShape(i, d - 1);
      PairsSnoc(SinkTrace(i, d - 1), i - d + 1);
    }
  }

  /** `r` is `s` with the value at `i` moved down to position `p`, the values
      of `s[p..i]` each shifted one place to the right. */
  predicate Shifted(s: seq<int>, i: int, p: int, r: seq<int>) {
    && 0 <= p <= i < |s| == |r|
    && (forall k :: 0 <= k < p ==> r[k] == s[k])
    && r[p] == s[i]
    && (forall k :: p < k <= i ==> r[k] == s[k - 1])
    && (forall k :: i < k < |s| ==> r[k] == s[k])
  }

  /** Ordering facts of the inner loop: the value from `i` sits at `p` and
      every value it has passed is strictly greater than it. */
  predicate SinkOrder(s: seq<int>, i: int, p: int, r: seq<int>) {
    && Shifted(s, i, p, r)
    && (forall k :: p <= k < i ==> s[k] > s[i])
  }

  /** Notification facts of the inner loop. */
  predicate SinkLog(s: seq<int>, i: int, p: int, r: seq<int>, t: seq<Event>) {
    && 0 <= p <= i
    && r == Replay(s, t)
    && t == SinkTrace(i, i - p)
    && OnlyInversionSwaps(s, t)
  }

  lemma SinkStepOrder(s: seq<int>, i: int, p: int, r: seq<int>)
    requires SinkOrder(s, i, p, r) && 0 < p && r[p - 1] > r[p]
    ensures SinkOrder(s, i, p - 1, Exchange(r, p, p - 1))
  {
  }

  lemma SinkStepLog(s: seq<int>, i: int, p: int, r: seq<int>, t: seq<Event>)
    requires SinkLog(s, i, p, r, t) && 0 < p < |r| == |s| && r[p - 1] > r[p]
    ensures SinkLog(s, i, p - 1, Exchange(r, p, p - 1), t + [Compare(p, p - 1)] + [Swap(p, p - 1)])
  {
    var c, w := Compare(p, p - 1), Swap(p, p - 1);
    Step(s, t, c);
    Step(s, t + [c], w);
  }

  /** The inner `while` loop for one `i`: sinks `s[i]` while its left
      neighbour is strictly greater, reporting each comparison that leads to
      an exchange and then the exchange.  The comparison that stops the loop
      is made silently. */
  method Sink(s: seq<int>, i: int) returns (r: seq<int>, p: int, trace: seq<Event>)
    requires 0 < i < |s|
    ensures 0 <= p <= i
    ensures Shifted(s, i, p, r)
    ensures forall k :: p <= k < i ==> s[k] > s[i]
    ensures p > 0 ==> s[p - 1] <= s[i]
    ensures r == Replay(s, trace)
    ensures trace == SinkTrace(i, i - p)
    ensures OnlyInversionSwaps(s, trace)
  {
    r, p, trace := s, i, [];
    while p > 0 && r[p - 1] > r[p]
      invariant SinkOrder(s, i, p, r)
      invariant SinkLog(s, i, p, r, trace)
      decreases p
    {
      SinkStepOrder(s, i, p, r);
      SinkStepLog(s, i, p, r, trace);
      r, trace, p := Exchange(r, p, p - 1), trace + [Compare(p, p - 1)] + [Swap(p, p - 1)], p - 1;
    }
  }

  /** Ordering facts of the outer loop: the prefix `r[0..i]` is sorted. */
  predicate InsertOrder(a: seq<int>, i: int, r: seq<int>) {
    && |r| == |a| && 1 <= i
    && (|a| == 0 || (i <= |a| && SortedBetween(r, 0, i)))
  }

  /** Notification facts of the outer loop. */
  predicate InsertLog(a: seq<int>, r: seq<int>, t: seq<Event>) {
    && r == Replay(a, t)
    && AllWithin(t, 0, |a| - 1)
    && CompareSwapPairs(t)
    && OnlyInversionSwaps(a, t)
  }

  /** Sinking `r[i]` into the sorted prefix `r[0..i]` leaves `r[0..i + 1]` sorted. */
  lemma InsertStepOrder(a: seq<int>, i: int, r: seq<int>, p: int, r': seq<int>)
    requires InsertOrder(a, i, r) && i < |a|
    requires 0 <= p <= i && Shifted(r, i, p, r')
    requires forall k :: p <= k < i ==> r[k] > r[i]
    requires p > 0 ==> r[p - 1] <= r[i]
    ensures InsertOrder(a, i + 1, r')
  {
    forall x, y | 0 <= x < y < i + 1
      ensures r'[x] <= r'[y]
    {
      if y < p {
      } else if y == p {
        assert r[x] <= r[p - 1];
      } else if x < p {
        assert r[x] <= r[y - 1];
      } else if x == p {
        assert r[y - 1] > r[i];
      } else {
        assert r[x - 1] <= r[y - 1];
      }
    }
  }

  lemma InsertStepLog(a: seq<int>, i: int, r: seq<int>, t: seq<Event>, p: int, r': seq<int>, t': seq<Event>)
    requires InsertLog(a, r, t) && 0 <= p <= i < |a| == |r|
    requires r' == Replay(r, t') && t' == SinkTrace(i, i - p) && OnlyInversionSwaps(r, t')
    ensures InsertLog(a, r', t + t')
  {
    ReplayConcat(a, t, t');
    InversionConcat(a, t, t');
    InsertShape(a, i, t, p, t');
  }

  /** Appending the notifications of one sinking value keeps the trace made of
      compare/exchange pairs on positions of the array. */
  lemma InsertShape(a: seq<int>, i: int, t: seq<Event>, p: int, t': seq<Event>)
    requires AllWithin(t, 0, |a| - 1) && CompareSwapPairs(t) && 0 <= p <= i < |a|
    requires t' == SinkTrace(i, i - p)
    ensures AllWithin(t + t', 0, |a| - 1) && CompareSwapPairs(t + t')
  {
    SinkTraceShape(i, i - p);
    PairsConcat(t, t');
    Widen(t', p, i, 0, |a| - 1);
    WithinConcat(t, t', 0, |a| - 1);
  }

  /** On an input that is already sorted, insertion sort sends nothing. */
  lemma SortedInputSilent(a: seq<int>, t: seq<Event>)
    requires Sorted(a) && InsertLog(a, Replay(a, t), t)
    ensures t == []
  {
    SortedInputNoSwaps(a, t);
    PairsCount(t);
  }

  method InsertionSort(a: seq<int>) returns (r: seq<int>, trace: seq<Event>)
    ensures Sorted(r)
    ensures multiset(r) == multiset(a)
    ensures r == Replay(a, trace)
    ensures AllWithin(trace, 0, |a| - 1)
    ensures CompareSwapPairs(trace)
    ensures CompareCount(trace) == SwapCount(trace)
    ensures OnlyInversionSwaps(a, trace)
    ensures exists ds :: |ds| == (if |a| == 0 then 0 else |a| - 1) && SinkDepths(ds) && trace == SinksTrace(ds)
    ensures Sorted(a) ==> trace == []
  {
    r, trace := a, [];
    var i := 1;
    ghost var ds: seq<nat> := [];
    while i < |a|
      invariant InsertOrder(a, i, r)
      invariant InsertLog(a, r, trace)
      invariant |ds| == i - 1 && SinkDepths(ds) && trace == SinksTrace(ds)
      decreases |a| - i
    {
      var r', p, t := Sink(r, i);
      InsertStepOrder(a, i, r, p, r');
      InsertStepLog(a, i, r, trace, p, r', t);
      ghost var d: nat := i - p;
      SinksSnoc(ds, d);
      assert trace + t == SinksTrace(ds + [d]);
      r, trace, i, ds := r', trace + t, i + 1, ds + [d];
    }
    ReplayMultiset(a, trace);
    PairsCount(trace);
    if Sorted(a) {
      SortedInputSilent(a, trace);
    }
  }
}

=== FILE: merge.dfy ===
/** Top-down merge sort.  `merge` copies the array, then fills
    `arr[start..end]` (inclusive) from the copy, taking the left run's value
    on ties.  Its `onSwap(k, src)` reports a copy into `k` from position `src`
    of the snapshot, not an exchange. */
module Merge {
  import opened Events
  import opened Seqs

  /** The reference merge of two sequences, preferring `xs` on ties. */
  function MergeSeqs(xs: seq<int>, ys: seq<int>): seq<int>
    decreases |xs| + |ys|
  {
    if xs == [] then ys
    else if ys == [] then xs
    else if xs[0] <= ys[0] then [xs[0]] + MergeSeqs(xs[1..], ys)
    else [ys[0]] + MergeSeqs(xs, ys[1..])
  }

  /** The merge is as long as both inputs together. */
  lemma {:induction false} MergeSeqsLength(xs: seq<int>, ys: seq<int>)
    ensures |MergeSeqs(xs, ys)| == |xs| + |ys|
    decreases |xs| + |ys|
  {
    if xs != [] && ys != [] {
      if xs[0] <= ys[0] {
        MergeSeqsLength(xs[1..], ys);
      } else {
        MergeSeqsLength(xs, ys[1..]);
      }
    }
  }

  /** Merging keeps every value of both inputs, and only those. */
  lemma {:induction false} MergeSeqsMultiset(xs: seq<int>, ys: seq<int>)
    ensures multiset(MergeSeqs(xs, ys)) == multiset(xs) + multiset(ys)
    decreases |xs| + |ys|
  {
    if xs == [] {
      assert MergeSeqs(xs, ys) == ys;
    } else if ys == [] {
      assert MergeSeqs(xs, ys) == xs;
    } else if xs[0] <= ys[0] {
      MergeSeqsMultiset(xs[1..], ys);
      HeadMultiset(xs, ys, MergeSeqs(xs[1..], ys));
    } else {
      MergeSeqsMultiset(xs, ys[1..]);
      HeadMultiset(ys, xs, MergeSeqs(xs, ys[1..]));
    }
  }

  /** Putting the head of `xs` in front of a merge of the rest of `xs` with
      `ys` gives a sequence holding the values of both. */
  lemma HeadMultiset(xs: seq<int>, ys: seq<int>, m: seq<int>)
    requires xs != [] && multiset(m) == multiset(xs[1..]) + multiset(ys)
    ensures multiset([xs[0]] + m) == multiset(xs) + multiset(ys)
  {
    assert xs == [xs[0]] + xs[1..];
  }

  /** A lower bound of both inputs is a lower bound of their merge. */
  lemma MergeSeqsAtLeast(xs: seq<int>, ys: seq<int>, v: int)
    requires AllAtLeast(xs, 0, |xs|, v) && AllAtLeast(ys, 0, |ys|, v)
    ensures AllAtLeast(MergeSeqs(xs, ys), 0, |MergeSeqs(xs, ys)|, v)
  {
    var m := MergeSeqs(xs, ys);
    MergeSeqsMultiset(xs, ys);
    forall p | 0 <= p < |m|
      ensures v <= m[p]
    {
      assert m[p] in multiset(xs) + multiset(ys);
    }
  }

  /** A sorted sequence stays sorted behind a value no greater than any of it. */
  lemma ConsSorted(x: int, m: seq<int>)
    requires Sorted(m) && AllAtLeast(m, 0, |m|, x)
    ensures Sorted([x] + m)
  {
    var s := [x] + m;
    forall p, q | 0 <= p < q < |s|
      ensures s[p] <= s[q]
    {
      if p > 0 {
        assert s[p] == m[p - 1] && s[q] == m[q - 1];
      }
    }
  }

  /** Merging two sorted sequences gives a sorted sequence. */
  lemma {:induction false} MergeSeqsSorted(xs: seq<int>, ys: seq<int>)
    requires Sorted(xs) && Sorted(ys)
    ensures Sorted(MergeSeqs(xs, ys))
    decreases |xs| + |ys|
  {
    if xs != [] && ys != [] {
      if xs[0] <= ys[0] {
        var m := MergeSeqs(xs[1..], ys);
        assert MergeSeqs(xs, ys) == [xs[0]] + m;
        assert Sorted(xs[1..]);
        MergeSeqsSorted(xs[1..], ys);
        MergeSeqsAtLeast(xs[1..], ys, xs[0]);
        ConsSorted(xs[0], m);
      } else {
        var m := MergeSeqs(xs, ys[1..]);
        assert MergeSeqs(xs, ys) == [ys[0]] + m;
        assert Sorted(ys[1..]);
        MergeSeqsSorted(xs, ys[1..]);
        MergeSeqsAtLeast(xs, ys[1..], ys[0]);
        ConsSorted(ys[0], m);
      }
    } else if xs == [] {
      assert MergeSeqs(xs, ys) == ys;
    } else {
      assert MergeSeqs(xs, ys) == xs;
    }
  }

  lemma TakeLeft(xs: seq<int>, ys: seq<int>)
    requires xs != [] && (ys == [] || xs[0] <= ys[0])
    ensures MergeSeqs(xs, ys) == [xs[0]] + MergeSeqs(xs[1..], ys)
  {
    if ys == [] {
      assert xs == [xs[0]] + xs[1..];
      if xs[1..] == [] {
      }
    }
  }

  lemma TakeRight(xs: seq<int>, ys: seq<int>)
    requires ys != [] && (xs == [] || xs[0] > ys[0])
    ensures MergeSeqs(xs, ys) == [ys[0]] + MergeSeqs(xs, ys[1..])
  {
    if xs == [] {
      assert ys == [ys[0]] + ys[1..];
    }
  }

  /** The merge of the not yet placed parts of the two runs. */
  function Rest(a: seq<int>, mid: int, end: int, i: int, j: int): seq<int>
    requires 0 <= i <= mid + 1 <= j <= end + 1 <= |a|
  {
    MergeSeqs(a[i..mid + 1], a[j..end + 1])
  }

  /** The merge of the whole of both runs, which `merge` writes into
      `arr[start..end]`. */
  function Merged(a: seq<int>, start: int, mid: int, end: int): (m: seq<int>)
    requires 0 <= start <= mid + 1 <= end + 1 <= |a|
    ensures |m| == end + 1 - start
  {
    MergeSeqsLength(a[start..mid + 1], a[mid + 1..end + 1]);
    Rest(a, mid, end, start, mid + 1)
  }

  /** Ordering facts of the first loop of `merge`, with `k = i + j - mid - 1`
      the next position written and `m` the merge of the two runs:
      `r[start..k]` holds the first values of `m`, what is left of the two
      runs merges into the rest of `m`, and positions from `k` on are
      untouched. */
  predicate MergeOrder(a: seq<int>, start: int, mid: int, end: int, i: int, j: int, r: seq<int>, m: seq<int>) {
    && 0 <= start <= i <= mid + 1 <= j <= end + 1 <= |a| == |r| && |m| == end + 1 - start
    && SameOutside(r, a, start, i + j - mid - 1)
    && Rest(a, mid, end, i, j) == m[i + j - mid - 1 - start..]
    && (forall p :: start <= p < i + j - mid - 1 ==> r[p] == m[p - start])
  }

  /** Taking the left head: it is the next value of the merge. */
  lemma RestLeft(a: seq<int>, start: int, mid: int, end: int, i: int, j: int, k: int, m: seq<int>)
    requires 0 <= start <= i <= mid < j <= end + 1 <= |a| && k == i + j - mid - 1
    requires j > end || a[i] <= a[j]
    requires |m| == end + 1 - start && Rest(a, mid, end, i, j) == m[k - start..]
    ensures m[k - start] == a[i]
    ensures Rest(a, mid, end, i + 1, j) == m[k - start + 1..]
  {
    TakeLeft(a[i..mid + 1], a[j..end + 1]);
    assert a[i..mid + 1][1..] == a[i + 1..mid + 1];
    assert m[k - start + 1..] == m[k - start..][1..];
  }

  /** Taking the right head: it is the next value of the merge. */
  lemma RestRight(a: seq<int>, start: int, mid: int, end: int, i: int, j: int, k: int, m: seq<int>)
    requires 0 <= start <= i <= mid + 1 <= j <= end < |a| && k == i + j - mid - 1
    requires i > mid || a[i] > a[j]
    requires |m| == end + 1 - start && Rest(a, mid, end, i, j) == m[k - start..]
    ensures m[k - start] == a[j]
    ensures Rest(a, mid, end, i, j + 1) == m[k - start + 1..]
  {
    TakeRight(a[i..mid + 1], a[j..end + 1]);
    assert a[j..end + 1][1..] == a[j + 1..end + 1];
    assert m[k - start + 1..] == m[k - start..][1..];
  }

  lemma StepLeft(a: seq<int>, start: int, mid: int, end: int, i: int, j: int, k: int, r: seq<int>, m: seq<int>)
    requires MergeOrder(a, start, mid, end, i, j, r, m) && i <= mid && (j > end || a[i] <= a[j])
    requires k == i + j - mid - 1
    ensures MergeOrder(a, start, mid, end, i + 1, j, r[k := a[i]], m)
  {
    RestLeft(a, start, mid, end, i, j, k, m);
  }

  lemma StepRight(a: seq<int>, start: int, mid: int, end: int, i: int, j: int, k: int, r: seq<int>, m: seq<int>)
    requires MergeOrder(a, start, mid, end, i, j, r, m) && j <= end && (i > mid || a[i] > a[j])
    requires k == i + j - mid - 1
    ensures MergeOrder(a, start, mid, end, i, j + 1, r[k := a[j]], m)
  {
    RestRight(a, start, mid, end, i, j, k, m);
  }

  /** The placements reported so far: placement `x` went to `start + x` from
      snapshot position `src`, which lies in the left run below `i` or in the
      right run below `j`. */
  predicate Placements(a: seq<int>, start: int, mid: int, i: int, j: int, r: seq<int>, w: seq<Event>) {
    forall x :: 0 <= x < |w| ==>
      && w[x] == Swap(start + x, w[x].j)
      && (start <= w[x].j < i || mid + 1 <= w[x].j < j)
      && 0 <= start + x < |r| && 0 <= w[x].j < |a|
      && r[start + x] == a[w[x].j]
  }

  /** Within each run, values are taken in order: two placements from the same
      run come from increasing positions. */
  predicate RunsInOrder(w: seq<Event>, mid: int) {
    forall x, y :: 0 <= x < y < |w| && (w[x].j <= mid <==> w[y].j <= mid) ==> w[x].j < w[y].j
  }

  /** Notification facts of `merge`'s loops; `c` counts the comparisons. */
  predicate MergeLog(a: seq<int>, start: int, mid: int, end: int, i: int, j: int, r: seq<int>, t: seq<Event>, c: int) {
    && |SwapsOf(t)| == i + j - mid - 1 - start
    && Placements(a, start, mid, i, j, r, SwapsOf(t))
    && RunsInOrder(SwapsOf(t), mid)
    && AllWithin(t, start, end)
    && CompareCount(t) == c
  }

  /** Two placements that carry equal values come from increasing snapshot
      positions: equal values keep their relative order. */
  predicate Stable(a: seq<int>, w: seq<Event>) {
    forall x, y :: 0 <= x < y < |w| && 0 <= w[x].j < |a| && 0 <= w[y].j < |a| && a[w[x].j] == a[w[y].j] ==>
      w[x].j < w[y].j
  }

  /** Stability of the placements so far, with the fact that keeps it: while
      the left run has values left, every value taken from the right run is
      strictly below the left head.  Both rest on a sorted left run. */
  predicate MergeStable(a: seq<int>, start: int, mid: int, i: int, w: seq<Event>) {
    0 <= start <= mid + 1 <= |a| && SortedBetween(a, start, mid + 1) ==>
      && Stable(a, w)
      && (0 <= i <= mid < |a| ==> forall x :: 0 <= x < |w| && mid < w[x].j < |a| ==> a[w[x].j] < a[i])
  }

  /** Placing the left head keeps the merge stable: every value taken from
      the right run so far is strictly below it, so none equals it. */
  lemma StableLeft(a: seq<int>, start: int, mid: int, i: int, j: int, k: int, r: seq<int>, w: seq<Event>, w': seq<Event>)
    requires 0 <= start <= i <= mid < j <= |a| == |r|
    requires Placements(a, start, mid, i, j, r, w) && MergeStable(a, start, mid, i, w)
    requires w' == w + [Swap(k, i)]
    ensures MergeStable(a, start, mid, i + 1, w')
  {
  }

  /** Placing the right head keeps the merge stable: it comes from a later
      position than every earlier placement, and when the left run has values
      left it was taken because it is strictly below the left head. */
  lemma StableRight(a: seq<int>, start: int, mid: int, i: int, j: int, k: int, r: seq<int>, w: seq<Event>, w': seq<Event>)
    requires 0 <= start <= i <= mid + 1 <= j < |a| == |r|
    requires i <= mid ==> a[i] > a[j]
    requires Placements(a, start, mid, i, j, r, w) && MergeStable(a, start, mid, i, w)
    requires w' == w + [Swap(k, j)]
    ensures MergeStable(a, start, mid, i, w')
  {
  }

  /** Reporting a comparison, then a placement: the counters and the list of
      placements grow accordingly. */
  lemma CountsAfterCompare(t: seq<Event>, c: Event, e: Event, start: int, end: int)
    requires AllWithin(t, start, end) && c.Compare? && e.Swap? && Within(c, start, end) && Within(e, start, end)
    ensures AllWithin(t + [c] + [e], start, end)
    ensures CompareCount(t + [c] + [e]) == CompareCount(t) + 1
    ensures SwapsOf(t + [c] + [e]) == SwapsOf(t) + [e]
  {
    Snoc(t, c);
    Snoc(t + [c], e);
  }

  /** Reporting a placement alone. */
  lemma CountsAfterPlace(t: seq<Event>, e: Event, start: int, end: int)
    requires AllWithin(t, start, end) && e.Swap? && Within(e, start, end)
    ensures AllWithin(t + [e], start, end)
    ensures CompareCount(t + [e]) == CompareCount(t)
    ensures SwapsOf(t + [e]) == SwapsOf(t) + [e]
  {
    Snoc(t, e);
  }

  /** Placing the next value of the left run extends the placements. */
  lemma PlaceLeft(a: seq<int>, start: int, mid: int, i: int, j: int, k: int, r: seq<int>, w: seq<Event>)
    requires 0 <= start <= i <= mid < j && j <= |a| == |r| && k == i + j - mid - 1 && |w| == k - start
    requires Placements(a, start, mid, i, j, r, w) && RunsInOrder(w, mid)
    ensures Placements(a, start, mid, i + 1, j, r[k := a[i]], w + [Swap(k, i)])
    ensures RunsInOrder(w + [Swap(k, i)], mid)
  {
  }

  /** Placing the next value of the right run extends the placements. */
  lemma PlaceRight(a: seq<int>, start: int, mid: int, i: int, j: int, k: int, r: seq<int>, w: seq<Event>)
    requires 0 <= start <= i <= mid + 1 <= j < |a| == |r| && k == i + j - mid - 1 && |w| == k - start
    requires Placements(a, start, mid, i, j, r, w) && RunsInOrder(w, mid)
    ensures Placements(a, start, mid, i, j + 1, r[k := a[j]], w + [Swap(k, j)])
    ensures RunsInOrder(w + [Swap(k, j)], mid)
  {
  }

  /** An iteration of the first loop of `merge` whose left head is not greater:
      the comparison is reported, then the left head is placed. */
  lemma CompareTakeLeft(a: seq<int>, start: int, mid: int, end: int, i: int, j: int, k: int, r: seq<int>, t: seq<Event>, c: int, m: seq<int>)
    requires MergeOrder(a, start, mid, end, i, j, r, m) && MergeLog(a, start, mid, end, i, j, r, t, c)
    requires i <= mid && j <= end && a[i] <= a[j] && k == i + j - mid - 1 && c == k - start
    ensures MergeOrder(a, start, mid, end, i + 1, j, r[k := a[i]], m)
    ensures MergeLog(a, start, mid, end, i + 1, j, r[k := a[i]], t + [Compare(i, j)] + [Swap(k, i)], c + 1)
    ensures SwapsOf(t + [Compare(i, j)] + [Swap(k, i)]) == SwapsOf(t) + [Swap(k, i)]
  {
    StepLeft(a, start, mid, end, i, j, k, r, m);
    CountsAfterCompare(t, Compare(i, j), Swap(k, i), start, end);
    PlaceLeft(a, start, mid, i, j, k, r, SwapsOf(t));
  }

  /** An iteration of the first loop of `merge` whose right head is smaller. */
  lemma CompareTakeRight(a: seq<int>, start: int, mid: int, end: int, i: int, j: int, k: int, r: seq<int>, t: seq<Event>, c: int, m: seq<int>)
    requires MergeOrder(a, start, mid, end, i, j, r, m) && MergeLog(a, start, mid, end, i, j, r, t, c)
    requires i <= mid && j <= end && a[i] > a[j] && k == i + j - mid - 1 && c == k - start
    ensures MergeOrder(a, start, mid, end, i, j + 1, r[k := a[j]], m)
    ensures MergeLog(a, start, mid, end, i, j + 1, r[k := a[j]], t + [Compare(i, j)] + [Swap(k, j)], c + 1)
    ensures SwapsOf(t + [Compare(i, j)] + [Swap(k, j)]) == SwapsOf(t) + [Swap(k, j)]
  {
    StepRight(a, start, mid, end, i, j, k, r, m);
    CountsAfterCompare(t, Compare(i, j), Swap(k, j), start, end);
    PlaceRight(a, start, mid, i, j, k, r, SwapsOf(t));
  }

  /** Ordering facts of the second and third loops of `merge`, once one run
      is used up: the merge of what is left is then just what is left of the
      two runs, one of them empty, written one after the other. */
  predicate DrainOrder(a: seq<int>, start: int, mid: int, end: int, i: int, j: int, r: seq<int>, m: seq<int>) {
    && 0 <= start <= i <= mid + 1 <= j <= end + 1 <= |a| == |r| && |m| == end + 1 - start
    && (i > mid || j > end)
    && SameOutside(r, a, start, i + j - mid - 1)
    && a[i..mid + 1] + a[j..end + 1] == m[i + j - mid - 1 - start..]
    && (forall p :: start <= p < i + j - mid - 1 ==> r[p] == m[p - start])
  }

  /** Copying the next value of the left run writes the next value of the
      merge. */
  lemma DrainOrderLeft(a: seq<int>, start: int, mid: int, end: int, i: int, j: int, k: int, r: seq<int>, m: seq<int>)
    requires DrainOrder(a, start, mid, end, i, j, r, m) && i <= mid && k == i + j - mid - 1
    ensures DrainOrder(a, start, mid, end, i + 1, j, r[k := a[i]], m)
  {
    assert a[j..end + 1] == [];
    assert a[i..mid + 1] == [a[i]] + a[i + 1..mid + 1];
    assert m[k - start..][0] == m[k - start];
    assert m[k - start + 1..] == m[k - start..][1..];
  }

  /** Copying the next value of the right run writes the next value of the
      merge. */
  lemma DrainOrderRight(a: seq<int>, start: int, mid: int, end: int, i: int, j: int, k: int, r: seq<int>, m: seq<int>)
    requires DrainOrder(a, start, mid, end, i, j, r, m) && j <= end && k == i + j - mid - 1
    ensures DrainOrder(a, start, mid, end, i, j + 1, r[k := a[j]], m)
  {
    assert a[i..mid + 1] == [];
    assert a[j..end + 1] == [a[j]] + a[j + 1..end + 1];
    assert m[k - start..][0] == m[k - start];
    assert m[k - start + 1..] == m[k - start..][1..];
  }

  /** Everything the first loop of `merge` keeps about its state. */
  predicate MergeState(a: seq<int>, start: int, mid: int, end: int, i: int, j: int, r: seq<int>, t: seq<Event>, c: int, m: seq<int>) {
    && MergeOrder(a, start, mid, end, i, j, r, m)
    && MergeLog(a, start, mid, end, i, j, r, t, c)
    && MergeStable(a, start, mid, i, SwapsOf(t))
  }

  /** Everything the second and third loops of `merge` keep about their
      state. */
  predicate DrainState(a: seq<int>, start: int, mid: int, end: int, i: int, j: int, r: seq<int>, t: seq<Event>, c: int, m: seq<int>) {
    && DrainOrder(a, start, mid, end, i, j, r, m)
    && MergeLog(a, start, mid, end, i, j, r, t, c)
    && MergeStable(a, start, mid, i, SwapsOf(t))
  }

  /** When the first loop stops, one run is used up and the other two loops
      take over its state. */
  lemma HeadsDone(a: seq<int>, start: int, mid: int, end: int, i: int, j: int, r: seq<int>, t: seq<Event>, c: int, m: seq<int>)
    requires MergeState(a, start, mid, end, i, j, r, t, c, m) && (i > mid || j > end)
    ensures DrainState(a, start, mid, end, i, j, r, t, c, m)
  {
    var xs, ys := a[i..mid + 1], a[j..end + 1];
    if xs == [] {
      assert xs + ys == ys;
    } else {
      assert ys == [] && xs + ys == xs;
    }
  }

  /** One iteration of the second loop of `merge`, which copies what is left
      of the left run. */
  lemma DrainLeftStep(a: seq<int>, start: int, mid: int, end: int, i: int, j: int, k: int, r: seq<int>, t: seq<Event>, c: int, m: seq<int>)
    requires DrainState(a, start, mid, end, i, j, r, t, c, m)
    requires i <= mid && k == i + j - mid - 1
    ensures DrainState(a, start, mid, end, i + 1, j, r[k := a[i]], t + [Swap(k, i)], c, m)
  {
    DrainOrderLeft(a, start, mid, end, i, j, k, r, m);
    CountsAfterPlace(t, Swap(k, i), start, end);
    PlaceLeft(a, start, mid, i, j, k, r, SwapsOf(t));
    StableLeft(a, start, mid, i, j, k, r, SwapsOf(t), SwapsOf(t + [Swap(k, i)]));
  }

  /** One iteration of the third loop of `merge`, which copies what is left
      of the right run. */
  lemma DrainRightStep(a: seq<int>, start: int, mid: int, end: int, i: int, j: int, k: int, r: seq<int>, t: seq<Event>, c: int, m: seq<int>)
    requires DrainState(a, start, mid, end, i, j, r, t, c, m)
    requires i > mid && j <= end && k == i + j - mid - 1
    ensures DrainState(a, start, mid, end, i, j + 1, r[k := a[j]], t + [Swap(k, j)], c, m)
  {
    DrainOrderRight(a, start, mid, end, i, j, k, r, m);
    CountsAfterPlace(t, Swap(k, j), start, end);
    PlaceRight(a, start, mid, i, j, k, r, SwapsOf(t));
    StableRight(a, start, mid, i, j, k, r, SwapsOf(t), SwapsOf(t + [Swap(k, j)]));
  }

  /** The left head is not greater: compare, then place it. */
  lemma HeadLeft(a: seq<int>, start: int, mid: int, end: int, i: int, j: int, k: int, r: seq<int>, t: seq<Event>, c: int, m: seq<int>)
    requires MergeState(a, start, mid, end, i, j, r, t, c, m)
    requires i <= mid && j <= end && a[i] <= a[j] && k == i + j - mid - 1 && c == k - start
    ensures MergeState(a, start, mid, end, i + 1, j, r[k := a[i]], t + [Compare(i, j)] + [Swap(k, i)], c + 1, m)
  {
    CompareTakeLeft(a, start, mid, end, i, j, k, r, t, c, m);
    StableLeft(a, start, mid, i, j, k, r, SwapsOf(t), SwapsOf(t + [Compare(i, j)] + [Swap(k, i)]));
  }

  /** The right head is smaller: compare, then place it. */
  lemma HeadRight(a: seq<int>, start: int, mid: int, end: int, i: int, j: int, k: int, r: seq<int>, t: seq<Event>, c: int, m: seq<int>)
    requires MergeState(a, start, mid, end, i, j, r, t, c, m)
    requires i <= mid && j <= end && a[i] > a[j] && k == i + j - mid - 1 && c == k - start
    ensures MergeState(a, start, mid, end, i, j + 1, r[k := a[j]], t + [Compare(i, j)] + [Swap(k, j)], c + 1, m)
  {
    CompareTakeRight(a, start, mid, end, i, j, k, r, t, c, m);
    StableRight(a, start, mid, i, j, k, r, SwapsOf(t), SwapsOf(t + [Compare(i, j)] + [Swap(k, j)]));
  }

  /** Either head, as the first loop of `merge` chooses it: the left one when
      it is not greater than the right one. */
  lemma HeadNext(a: seq<int>, start: int, mid: int, end: int, i: int, j: int, k: int, src: int, r: seq<int>, t: seq<Event>, c: int, m: seq<int>)
    requires MergeState(a, start, mid, end, i, j, r, t, c, m)
    requires i <= mid && j <= end && k == i + j - mid - 1 && c == k - start
    requires src == if a[i] <= a[j] then i else j
    ensures MergeState(a, start, mid, end, if src == i then i + 1 else i, if src == i then j else j + 1,
                       r[k := a[src]], t + [Compare(i, j)] + [Swap(k, src)], c + 1, m)
  {
    if a[i] <= a[j] {
      HeadLeft(a, start, mid, end, i, j, k, r, t, c, m);
    } else {
      HeadRight(a, start, mid, end, i, j, k, r, t, c, m);
    }
  }

  /** One iteration of the first loop of `merge`: reports the comparison of
      the two heads, then places the smaller one, the left one on ties. */
  method HeadStep(a: seq<int>, start: int, mid: int, end: int, r: seq<int>, t: seq<Event>, i: int, j: int, ghost c: int, ghost m: seq<int>)
    returns (r': seq<int>, t': seq<Event>, i': int, j': int)
    requires MergeState(a, start, mid, end, i, j, r, t, c, m)
    requires c == i + j - mid - 1 - start && i <= mid && j <= end
    ensures MergeState(a, start, mid, end, i', j', r', t', c + 1, m)
    ensures i' + j' == i + j + 1 && i <= i' && j <= j'
    ensures i' == if a[i] <= a[j] then i + 1 else i
    ensures t' == t + [Compare(i, j)] + [Swap(i + j - mid - 1, if a[i] <= a[j] then i else j)]
  {
    var k := i + j - mid - 1;
    var src := if a[i] <= a[j] then i else j;
    HeadNext(a, start, mid, end, i, j, k, src, r, t, c, m);
    r', t' := r[k := a[src]], t + [Compare(i, j)] + [Swap(k, src)];
    i', j' := if src == i then i + 1 else i, if src == i then j else j + 1;
  }

  /** The first loop of `merge`: while both runs have values left, compare
      their heads and place the smaller one. */
  method MergeHeads(a: seq<int>, start: int, mid: int, end: int, ghost m: seq<int>) returns (r: seq<int>, trace: seq<Event>, i: int, j: int)
    requires 0 <= start <= mid < end < |a| && m == Merged(a, start, mid, end)
    ensures MergeState(a, start, mid, end, i, j, r, trace, i + j - mid - 1 - start, m)
    ensures i > mid || j > end
    ensures i <= mid || j <= end
  {
    r, trace := a, [];
    i, j := start, mid + 1;
    ghost var c := 0;
    while i <= mid && j <= end
      invariant MergeState(a, start, mid, end, i, j, r, trace, c, m)
      invariant c == i + j - mid - 1 - start
      invariant i <= mid || j <= end
      decreases mid - i + end - j
    {
      r, trace, i, j := HeadStep(a, start, mid, end, r, trace, i, j, c, m);
      c := c + 1;
    }
  }

  /** One iteration of the second loop: place the left head at `k`. */
  method DrainLeftOne(a: seq<int>, start: int, mid: int, end: int, r: seq<int>, t: seq<Event>, i: int, j: int, ghost c: int, ghost m: seq<int>)
    returns (r': seq<int>, t': seq<Event>)
    requires DrainState(a, start, mid, end, i, j, r, t, c, m) == true && i <= mid
    ensures DrainState(a, start, mid, end, i + 1, j, r', t', c, m)
  {
    var k := i + j - mid - 1;
    DrainLeftStep(a, start, mid, end, i, j, k, r, t, c, m);
    r', t' := r[k := a[i]], t + [Swap(k, i)];
  }

  /** The second loop of `merge`: copies what is left of the left run.
      (`== true` keeps the drains' state one fact for the verifier.) */
  method DrainLeft(a: seq<int>, start: int, mid: int, end: int, r0: seq<int>, t0: seq<Event>, i0: int, j: int, ghost c: int, ghost m: seq<int>)
    returns (r: seq<int>, trace: seq<Event>, i: int)
    requires DrainState(a, start, mid, end, i0, j, r0, t0, c, m) == true
    ensures DrainState(a, start, mid, end, i, j, r, trace, c, m) == true
    ensures i == mid + 1
  {
    r, trace, i := r0, t0, i0;
    while i <= mid
      invariant DrainState(a, start, mid, end, i, j, r, trace, c, m) == true
      decreases mid - i
    {
      r, trace := DrainLeftOne(a, start, mid, end, r, trace, i, j, c, m);
      i := i + 1;
    }
  }

  /** One iteration of the third loop: place the right head at `k`. */
  method DrainRightOne(a: seq<int>, start: int, mid: int, end: int, r: seq<int>, t: seq<Event>, j: int, ghost c: int, ghost m: seq<int>)
    returns (r': seq<int>, t': seq<Event>)
    requires DrainState(a, start, mid, end, mid + 1, j, r, t, c, m) == true && j <= end
    ensures DrainState(a, start, mid, end, mid + 1, j + 1, r', t', c, m)
  {
    DrainRightStep(a, start, mid, end, mid + 1, j, j, r, t, c, m);
    r', t' := r[j := a[j]], t + [Swap(j, j)];
  }

  /** The third loop of `merge`: copies what is left of the right run.  With
      the left run used up, the position written is `k == j`. */
  method DrainRight(a: seq<int>, start: int, mid: int, end: int, r0: seq<int>, t0: seq<Event>, j0: int, ghost c: int, ghost m: seq<int>)
    returns (r: seq<int>, trace: seq<Event>, j: int)
    requires DrainState(a, start, mid, end, mid + 1, j0, r0, t0, c, m) == true
    ensures DrainState(a, start, mid, end, mid + 1, j, r, trace, c, m) == true
    ensures j == end + 1
  {
    r, trace, j := r0, t0, j0;
    while j <= end
      invariant DrainState(a, start, mid, end, mid + 1, j, r, trace, c, m) == true
      decreases end - j
    {
      r, trace := DrainRightOne(a, start, mid, end, r, trace, j, c, m);
      j := j + 1;
    }
  }

  /** `merge(start, mid, end)`: merges the runs `a[start..mid]` and
      `a[mid + 1..end]` (both inclusive) into `r[start..end]`, reading from a
      snapshot of `a`. */
  method MergeRuns(a: seq<int>, start: int, mid: int, end: int) returns (r: seq<int>, trace: seq<Event>)
    requires 0 <= start <= mid < end < |a|
    ensures SameOutside(r, a, start, end + 1)
    ensures r[start..end + 1] == MergeSeqs(a[start..mid + 1], a[mid + 1..end + 1])
    ensures |SwapsOf(trace)| == end - start + 1
    ensures Placements(a, start, mid, mid + 1, end + 1, r, SwapsOf(trace))
    ensures RunsInOrder(SwapsOf(trace), mid)
    ensures AllWithin(trace, start, end)
    ensures CompareCount(trace) <= end - start
    ensures CompareCount(trace) >= mid - start + 1 || CompareCount(trace) >= end - mid
    ensures SortedBetween(a, start, mid + 1) ==> Stable(a, SwapsOf(trace))
  {
    ghost var m := Merged(a, start, mid, end);
    var r1, t1, i, j := MergeHeads(a, start, mid, end, m);
    ghost var c := i + j - mid - 1 - start;
    HeadsDone(a, start, mid, end, i, j, r1, t1, c, m);
    var r2, t2, i' := DrainLeft(a, start, mid, end, r1, t1, i, j, c, m);
    var j';
    r, trace, j' := DrainRight(a, start, mid, end, r2, t2, j, c, m);
    MergeDone(a, start, mid, end, r, m);
  }

  lemma MergeDone(a: seq<int>, start: int, mid: int, end: int, r: seq<int>, m: seq<int>)
    requires DrainOrder(a, start, mid, end, mid + 1, end + 1, r, m) && m == Merged(a, start, mid, end)
    ensures r[start..end + 1] == MergeSeqs(a[start..mid + 1], a[mid + 1..end + 1])
  {
    assert r[start..end + 1] == m;
  }

  /** A sorted window, read as a sequence of its own. */
  lemma SortedWindow(s: seq<int>, lo: int, hi: int)
    requires 0 <= lo <= hi <= |s|
    ensures SortedBetween(s, lo, hi) <==> Sorted(s[lo..hi])
  {
    if Sorted(s[lo..hi]) {
      forall x, y | lo <= x < y < hi
        ensures s[x] <= s[y]
      {
        assert s[x] == s[lo..hi][x - lo] && s[y] == s[lo..hi][y - lo];
      }
    }
  }

  /** Merging two sorted neighbouring windows leaves their union sorted. */
  lemma JoinSorted(s: seq<int>, r: seq<int>, start: int, mid: int, end: int)
    requires 0 <= start <= mid < end < |s| == |r|
    requires SortedBetween(s, start, mid + 1) && SortedBetween(s, mid + 1, end + 1)
    requires r[start..end + 1] == MergeSeqs(s[start..mid + 1], s[mid + 1..end + 1])
    ensures SortedBetween(r, start, end + 1)
  {
    SortedWindow(s, start, mid + 1);
    SortedWindow(s, mid + 1, end + 1);
    MergeSeqsSorted(s[start..mid + 1], s[mid + 1..end + 1]);
    SortedWindow(r, start, end + 1);
  }

  /** Replacing a window by values that are those of its two halves keeps
      the values of the array. */
  lemma JoinMultiset(s: seq<int>, r: seq<int>, start: int, mid: int, end: int)
    requires 0 <= start <= mid < end < |s| == |r|
    requires SameOutside(r, s, start, end + 1)
    requires multiset(r[start..end + 1]) == multiset(s[start..mid + 1]) + multiset(s[mid + 1..end + 1])
    ensures multiset(r) == multiset(s)
  {
    SplitWindow(s, start, mid + 1, end + 1);
    assert multiset(r[start..end + 1]) == multiset(s[start..end + 1]);
    WindowMultiset(r, s, start, end + 1);
  }

  /** The merge written by `merge` holds the values of both runs. */
  lemma MergedMultiset(s: seq<int>, r: seq<int>, start: int, mid: int, end: int)
    requires 0 <= start <= mid < end < |s| == |r|
    requires r[start..end + 1] == MergeSeqs(s[start..mid + 1], s[mid + 1..end + 1])
    ensures multiset(r[start..end + 1]) == multiset(s[start..mid + 1]) + multiset(s[mid + 1..end + 1])
  {
    MergeSeqsMultiset(s[start..mid + 1], s[mid + 1..end + 1]);
  }

  /** A window holds the values of its two halves. */
  lemma SplitWindow(s: seq<int>, lo: int, mid: int, hi: int)
    requires 0 <= lo <= mid <= hi <= |s|
    ensures multiset(s[lo..hi]) == multiset(s[lo..mid]) + multiset(s[mid..hi])
  {
    assert s[lo..hi] == s[lo..mid] + s[mid..hi];
  }

  /** The second recursive call leaves the first half as the first call left it. */
  lemma HalvesKept(a: seq<int>, r1: seq<int>, r2: seq<int>, start: int, mid: int, end: int)
    requires 0 <= start <= mid < end < |a|
    requires SameOutside(r1, a, start, mid + 1) && multiset(r1) == multiset(a)
    requires SortedBetween(r1, start, mid + 1)
    requires SameOutside(r2, r1, mid + 1, end + 1) && multiset(r2) == multiset(r1)
    ensures SameOutside(r2, a, start, end + 1) && multiset(r2) == multiset(a)
    ensures SortedBetween(r2, start, mid + 1)
  {
  }

  /** `merge` as `mergeSortHelper` uses it: on two sorted neighbouring runs it
      leaves their union sorted, holding the same values, after one placement
      per value. */
  method MergeSortedRuns(s: seq<int>, start: int, mid: int, end: int) returns (r: seq<int>, trace: seq<Event>)
    requires 0 <= start <= mid < end < |s|
    requires SortedBetween(s, start, mid + 1) && SortedBetween(s, mid + 1, end + 1)
    ensures SameOutside(r, s, start, end + 1) && multiset(r) == multiset(s)
    ensures SortedBetween(r, start, end + 1)
    ensures AllWithin(trace, start, end) && SwapCount(trace) == end - start + 1
    ensures Stable(s, SwapsOf(trace))
  {
    r, trace := MergeRuns(s, start, mid, end);
    JoinSorted(s, r, start, mid, end);
    MergedMultiset(s, r, start, mid, end);
    JoinMultiset(s, r, start, mid, end);
  }

  /** The notifications of both halves and of their merge. */
  lemma JoinTraces(t1: seq<Event>, t2: seq<Event>, t3: seq<Event>, start: int, mid: int, end: int)
    requires start <= mid < end
    requires AllWithin(t1, start, mid) && AllWithin(t2, mid + 1, end) && AllWithin(t3, start, end)
    ensures AllWithin(t1 + t2 + t3, start, end)
    ensures SwapCount(t1 + t2 + t3) >= SwapCount(t3)
  {
    Widen(t1, start, mid, start, end);
    Widen(t2, mid + 1, end, start, end);
    WithinConcat(t1, t2, start, end);
    WithinConcat(t1 + t2, t3, start, end);
    Concat(t1 + t2, t3);
  }

  /** `mergeSortHelper(start, end)`: sorts `a[start..end]` (inclusive) by
      sorting both halves around `mid = floor((start + end) / 2)` and merging
      them.  Every merge places every value of its window, so a window of two
      or more values reports at least as many placements as it holds. */
  method MergeSortRange(a: seq<int>, start: int, end: int) returns (r: seq<int>, trace: seq<Event>)
    requires 0 <= start <= end + 1 <= |a|
    ensures SameOutside(r, a, start, end + 1)
    ensures multiset(r) == multiset(a)
    ensures SortedBetween(r, start, end + 1)
    ensures AllWithin(trace, start, end)
    ensures start < end ==> SwapCount(trace) >= end - start + 1
    ensures start >= end ==> r == a && trace == []
    decreases end - start
  {
    if start >= end {
      return a, [];
    }
    var mid := (start + end) / 2;
    var r1, t1 := MergeSortRange(a, start, mid);
    var r2, t2 := MergeSortRange(r1, mid + 1, end);
    HalvesKept(a, r1, r2, start, mid, end);
    var t3;
    r, t3 := MergeSortedRuns(r2, start, mid, end);
    JoinTraces(t1, t2, t3, start, mid, end);
    trace := t1 + t2 + t3;
  }

  /** `mergeSort`: sorts the whole array. */
  method MergeSort(a: seq<int>) returns (r: seq<int>, trace: seq<Event>)
    ensures Sorted(r)
    ensures multiset(r) == multiset(a)
    ensures AllWithin(trace, 0, |a| - 1)
    ensures |a| >= 2 ==> SwapCount(trace) >= |a|
    ensures |a| <= 1 ==> trace == []
  {
    r, trace := MergeSortRange(a, 0, |a| - 1);
  }
}

=== FILE: quick.dfy ===
/** Quick sort with Lomuto partitioning: the last value of the range is the
    pivot, smaller values are gathered to the left, and the pivot is then
    exchanged into the first position after them. */
module Quick {
  import opened Events
  import opened Seqs
  import opened Traces

  /** Every comparison of `t` is against position `high`, where the pivot sits. */
  predicate ComparesAgainst(t: seq<Event>, high: int) {
    forall k :: 0 <= k < |t| && t[k].Compare? ==> t[k].j == high
  }

  /** `s[low..high]` is split at `p`: values before `p` are strictly below
      `s[p]`, values after it (up to and including `high`) are at least `s[p]`. */
  predicate Partitioned(s: seq<int>, low: int, p: int, high: int) {
    && 0 <= low <= p <= high < |s|
    && AllBelow(s, low, p, s[p])
    && AllAtLeast(s, p + 1, high + 1, s[p])
  }

  /** Ordering facts of the partition loop: `r[low..i]` (inclusive) is below the
      pivot `a[high]`, `r[i + 1..j]` is at least the pivot. */
  predicate PartOrder(a: seq<int>, low: int, high: int, i: int, j: int, r: seq<int>) {
    && 0 <= low <= high < |a|
    && low - 1 <= i < j <= high
    && SameOutside(r, a, low, high + 1)
    && r[high] == a[high]
    && AllBelow(r, low, i + 1, a[high])
    && AllAtLeast(r, i + 1, j, a[high])
  }

  /** Notification facts of the partition loop. */
  predicate PartLog(a: seq<int>, low: int, high: int, i: int, j: int, r: seq<int>, t: seq<Event>) {
    && r == Replay(a, t)
    && AllWithin(t, low, high)
    && CompareCount(t) == j - low
    && SwapCount(t) == i + 1 - low
    && ComparesAgainst(t, high)
  }

  lemma PartStepOrder(a: seq<int>, low: int, high: int, i: int, j: int, r: seq<int>)
    requires PartOrder(a, low, high, i, j, r) && j < high
    ensures r[j] < a[high] ==> PartOrder(a, low, high, i + 1, j + 1, Exchange(r, i + 1, j))
    ensures r[j] >= a[high] ==> PartOrder(a, low, high, i, j + 1, r)
  {
  }

  lemma PartStepReplay(a: seq<int>, low: int, high: int, j: int, r: seq<int>, t: seq<Event>, e: Event)
    requires r == Replay(a, t) && ComparesAgainst(t, high)
    requires 0 <= low <= j < high < |a|
    ensures Replay(a, t + [Compare(j, high)]) == r
    ensures ComparesAgainst(t + [Compare(j, high)], high)
    ensures e.Swap? ==> ComparesAgainst(t + [Compare(j, high)] + [e], high)
    ensures e.Swap? && 0 <= e.i < |r| && 0 <= e.j < |r| ==>
      Replay(a, t + [Compare(j, high)] + [e]) == Exchange(r, e.i, e.j)
  {
    ReplayTwo(a, t, Compare(j, high), e);
    AgainstTwo(t, high, Compare(j, high), e);
  }

  lemma ReplayTwo(a: seq<int>, t: seq<Event>, c: Event, e: Event)
    requires c.Compare?
    ensures Replay(a, t + [c]) == Replay(a, t)
    ensures Replay(a, t + [c] + [e]) == Apply(Replay(a, t), e)
  {
    Step(a, t, c);
    Step(a, t + [c], e);
  }

  lemma AgainstTwo(t: seq<Event>, high: int, c: Event, e: Event)
    requires ComparesAgainst(t, high) && c == Compare(c.i, high)
    ensures ComparesAgainst(t + [c], high)
    ensures e.Swap? ==> ComparesAgainst(t + [c] + [e], high)
  {
  }

  lemma PartStepCounts(low: int, high: int, i: int, j: int, t: seq<Event>)
    requires AllWithin(t, low, high) && CompareCount(t) == j - low && SwapCount(t) == i + 1 - low
    requires low - 1 <= i < j < high
    ensures AllWithin(t + [Compare(j, high)], low, high)
    ensures CompareCount(t + [Compare(j, high)]) == j + 1 - low
    ensures SwapCount(t + [Compare(j, high)]) == i + 1 - low
    ensures AllWithin(t + [Compare(j, high)] + [Swap(i + 1, j)], low, high)
    ensures CompareCount(t + [Compare(j, high)] + [Swap(i + 1, j)]) == j + 1 - low
    ensures SwapCount(t + [Compare(j, high)] + [Swap(i + 1, j)]) == i + 2 - low
  {
    var c := Compare(j, high);
    Snoc(t, c);
    Snoc(t + [c], Swap(i + 1, j));
  }

  lemma PartStepLog(a: seq<int>, low: int, high: int, i: int, j: int, r: seq<int>, t: seq<Event>)
    requires PartOrder(a, low, high, i, j, r) && PartLog(a, low, high, i, j, r, t) && j < high
    ensures r[j] < a[high] ==>
      PartLog(a, low, high, i + 1, j + 1, Exchange(r, i + 1, j), t + [Compare(j, high)] + [Swap(i + 1, j)])
    ensures r[j] >= a[high] ==>
      PartLog(a, low, high, i, j + 1, r, t + [Compare(j, high)])
  {
    PartStepReplay(a, low, high, j, r, t, Swap(i + 1, j));
    PartStepCounts(low, high, i, j, t);
  }

  /** The pivot's closing exchange with position `i + 1`. */
  lemma PartClose(a: seq<int>, low: int, high: int, i: int, r: seq<int>, t: seq<Event>)
    requires PartOrder(a, low, high, i, high, r) && PartLog(a, low, high, i, high, r, t)
    ensures Partitioned(Exchange(r, i + 1, high), low, i + 1, high)
    ensures Exchange(r, i + 1, high)[i + 1] == a[high]
    ensures SameOutside(Exchange(r, i + 1, high), a, low, high + 1)
    ensures Exchange(r, i + 1, high) == Replay(a, t + [Swap(i + 1, high)])
    ensures AllWithin(t + [Swap(i + 1, high)], low, high)
    ensures CompareCount(t + [Swap(i + 1, high)]) == high - low
    ensures SwapCount(t + [Swap(i + 1, high)]) == i + 2 - low
    ensures ComparesAgainst(t + [Swap(i + 1, high)], high)
  {
    CloseReplay(a, low, high, i, r, t);
  }

  lemma CloseReplay(a: seq<int>, low: int, high: int, i: int, r: seq<int>, t: seq<Event>)
    requires PartLog(a, low, high, i, high, r, t) && low - 1 <= i < high < |a| && 0 <= low
    ensures Exchange(r, i + 1, high) == Replay(a, t + [Swap(i + 1, high)])
    ensures AllWithin(t + [Swap(i + 1, high)], low, high)
    ensures CompareCount(t + [Swap(i + 1, high)]) == high - low
    ensures SwapCount(t + [Swap(i + 1, high)]) == i + 2 - low
    ensures ComparesAgainst(t + [Swap(i + 1, high)], high)
  {
    Step(a, t, Swap(i + 1, high));
  }

  /** One iteration of the partition loop: compare `r[j]` with the pivot and,
      when it is strictly smaller, exchange it into position `i + 1`. */
  method PartStep(a: seq<int>, low: int, high: int, i: int, j: int, r: seq<int>, t: seq<Event>)
    returns (r': seq<int>, t': seq<Event>, i': int)
    requires PartOrder(a, low, high, i, j, r) && PartLog(a, low, high, i, j, r, t) && j < high
    ensures PartOrder(a, low, high, i', j + 1, r') && PartLog(a, low, high, i', j + 1, r', t')
    ensures i' == (if r[j] < a[high] then i + 1 else i)
  {
    PartStepOrder(a, low, high, i, j, r);
    PartStepLog(a, low, high, i, j, r, t);
    if r[j] < a[high] {
      r', t', i' := Exchange(r, i + 1, j), t + [Compare(j, high)] + [Swap(i + 1, j)], i + 1;
    } else {
      r', t', i' := r, t + [Compare(j, high)], i;
    }
  }

  /** `partition(low, high)`: one comparison against the pivot for every
      position `low..high - 1`, an exchange for every value strictly below
      the pivot, and the closing exchange that puts the pivot at `p`. */
  method Partition(a: seq<int>, low: int, high: int) returns (r: seq<int>, p: int, trace: seq<Event>)
    requires 0 <= low <= high < |a|
    ensures low <= p <= high
    ensures Partitioned(r, low, p, high)
    ensures r[p] == a[high]
    ensures SameOutside(r, a, low, high + 1)
    ensures multiset(r) == multiset(a)
    ensures r == Replay(a, trace)
    ensures AllWithin(trace, low, high)
    ensures CompareCount(trace) == high - low
    ensures SwapCount(trace) == p - low + 1
    ensures ComparesAgainst(trace, high)
    ensures trace != [] && trace[|trace| - 1] == Swap(p, high)
  {
    r, trace := a, [];
    var i := low - 1;
    var j := low;
    while j <= high - 1
      invariant PartOrder(a, low, high, i, j, r)
      invariant PartLog(a, low, high, i, j, r, trace)
      decreases high - j
    {
      r, trace, i := PartStep(a, low, high, i, j, r, trace);
      j := j + 1;
    }
    PartClose(a, low, high, i, r, trace);
    r, trace, p := Exchange(r, i + 1, high), trace + [Swap(i + 1, high)], i + 1;
    ReplayMultiset(a, trace);
  }

  /** What `quickSortHelper(low, high)` promises about its result. */
  predicate RangeSorted(a: seq<int>, low: int, high: int, r: seq<int>, t: seq<Event>) {
    && 0 <= low <= high + 1 <= |a|
    && SameOutside(r, a, low, high + 1)
    && multiset(r) == multiset(a)
    && SortedBetween(r, low, high + 1)
    && r == Replay(a, t)
    && AllWithin(t, low, high)
  }

  /** Sorting the range left of the pivot keeps the partition. */
  lemma LeftKeepsPartition(r1: seq<int>, low: int, p: int, high: int, r2: seq<int>)
    requires Partitioned(r1, low, p, high)
    requires SameOutside(r2, r1, low, p) && multiset(r2) == multiset(r1)
    ensures Partitioned(r2, low, p, high) && r2[p] == r1[p]
    ensures forall k :: p < k <= high ==> r2[k] == r1[k]
  {
    WindowBelowKept(r2, r1, low, p, r1[p]);
  }

  /** Sorting the range right of the pivot keeps the partition. */
  lemma RightKeepsPartition(r2: seq<int>, low: int, p: int, high: int, r3: seq<int>)
    requires Partitioned(r2, low, p, high)
    requires SameOutside(r3, r2, p + 1, high + 1) && multiset(r3) == multiset(r2)
    ensures Partitioned(r3, low, p, high) && r3[p] == r2[p]
    ensures forall k :: low <= k < p ==> r3[k] == r2[k]
  {
    WindowAtLeastKept(r3, r2, p + 1, high + 1, r2[p]);
  }

  /** A partitioned range whose two sides are sorted is sorted. */
  lemma JoinSorted(s: seq<int>, low: int, p: int, high: int)
    requires Partitioned(s, low, p, high)
    requires SortedBetween(s, low, p) && SortedBetween(s, p + 1, high + 1)
    ensures SortedBetween(s, low, high + 1)
  {
  }

  lemma QuickStepOrder(a: seq<int>, low: int, p: int, high: int, r1: seq<int>, r2: seq<int>, r3: seq<int>)
    requires Partitioned(r1, low, p, high) && SameOutside(r1, a, low, high + 1) && multiset(r1) == multiset(a)
    requires SameOutside(r2, r1, low, p) && multiset(r2) == multiset(r1) && SortedBetween(r2, low, p)
    requires SameOutside(r3, r2, p + 1, high + 1) && multiset(r3) == multiset(r2)
    requires SortedBetween(r3, p + 1, high + 1)
    ensures SameOutside(r3, a, low, high + 1)
    ensures multiset(r3) == multiset(a)
    ensures SortedBetween(r3, low, high + 1)
  {
    LeftKeepsPartition(r1, low, p, high, r2);
    RightKeepsPartition(r2, low, p, high, r3);
    assert SortedBetween(r3, low, p);
    JoinSorted(r3, low, p, high);
  }

  lemma QuickStepLog(a: seq<int>, low: int, p: int, high: int, r1: seq<int>, t1: seq<Event>,
                     r2: seq<int>, t2: seq<Event>, r3: seq<int>, t3: seq<Event>)
    requires 0 <= low <= p <= high < |a|
    requires r1 == Replay(a, t1) && AllWithin(t1, low, high)
    requires r2 == Replay(r1, t2) && AllWithin(t2, low, p - 1)
    requires r3 == Replay(r2, t3) && AllWithin(t3, p + 1, high)
    ensures r3 == Replay(a, t1 + t2 + t3)
    ensures AllWithin(t1 + t2 + t3, low, high)
  {
    ReplayConcat(a, t1, t2);
    ReplayConcat(a, t1 + t2, t3);
    Widen(t2, low, p - 1, low, high);
    Widen(t3, p + 1, high, low, high);
  }

  /** `quickSortHelper(low, high)`: sorts `a[low..high]` (inclusive) in place. */
  method QuickSortRange(a: seq<int>, low: int, high: int) returns (r: seq<int>, trace: seq<Event>)
    requires 0 <= low <= high + 1 <= |a|
    ensures RangeSorted(a, low, high, r, trace)
    ensures low >= high ==> r == a && trace == []
    decreases high - low
  {
    if low < high {
      var r1, p, t1 := Partition(a, low, high);
      var r2, t2 := QuickSortRange(r1, low, p - 1);
      var r3, t3 := QuickSortRange(r2, p + 1, high);
      ReplayMultiset(a, t1);
      QuickStepOrder(a, low, p, high, r1, r2, r3);
      QuickStepLog(a, low, p, high, r1, t1, r2, t2, r3, t3);
      r, trace := r3, t1 + t2 + t3;
    } else {
      r, trace := a, [];
    }
  }

  method QuickSort(a: seq<int>) returns (r: seq<int>, trace: seq<Event>)
    ensures Sorted(r)
    ensures multiset(r) == multiset(a)
    ensures r == Replay(a, trace)
    ensures AllWithin(trace, 0, |a| - 1)
    ensures |a| <= 1 ==> trace == []
  {
    r, trace := QuickSortRange(a, 0, |a| - 1);
  }
}

=== FILE: selection.dfy ===
/** Selection sort: round `i` scans `arr[i + 1..]` for the first smallest
    value and exchanges it into position `i` when it is not already there. */
module Selection {
  import opened Events
  import opened Seqs
  import opened Traces

  /** `m` is the position of the first smallest value of `s[lo..hi]`. */
  predicate IsFirstMin(s: seq<int>, lo: int, hi: int, m: int) {
    && 0 <= lo <= m < hi <= |s|
    && (forall k :: lo <= k < hi ==> s[m] <= s[k])
    && (forall k :: lo <= k < m ==> s[k] > s[m])
  }

  /** The scan's notifications so far: comparison number `x` pairs the
      position of the smallest value met up to then with position `i + 1 + x`. */
  predicate ScanLog(s: seq<int>, i: int, t: seq<Event>) {
    forall x :: 0 <= x < |t| ==>
      && t[x].Compare?
      && t[x].j == i + 1 + x
      && IsFirstMin(s, i, i + 1 + x, t[x].i)
  }

  lemma ScanStep(s: seq<int>, i: int, j: int, m: int, t: seq<Event>)
    requires ScanLog(s, i, t) && |t| == j - i - 1 && IsFirstMin(s, i, j, m) && j < |s|
    ensures ScanLog(s, i, t + [Compare(m, j)])
    ensures IsFirstMin(s, i, j + 1, if s[j] < s[m] then j else m)
  {
  }

  /** The inner `for` loop of round `i`: finds the first smallest value of
      `s[i..]`, reporting `onCompare(minIndex, j)` for every later `j`. */
  method MinIndexFrom(s: seq<int>, i: int) returns (m: int, trace: seq<Event>)
    requires 0 <= i < |s|
    ensures IsFirstMin(s, i, |s|, m)
    ensures |trace| == |s| - i - 1
    ensures ScanLog(s, i, trace)
  {
    m, trace := i, [];
    var j := i + 1;
    while j < |s|
      invariant i < j <= |s|
      invariant IsFirstMin(s, i, j, m)
      invariant |trace| == j - i - 1
      invariant ScanLog(s, i, trace)
      decreases |s| - j
    {
      ScanStep(s, i, j, m, trace);
      trace := trace + [Compare(m, j)];
      if s[j] < s[m] {
        m := j;
      }
      j := j + 1;
    }
  }

  /** Ordering facts after `i` rounds: `r[0..i]` is sorted and holds values no
      greater than any value after it. */
  predicate SelectOrder(a: seq<int>, i: int, r: seq<int>) {
    && |r| == |a| && 0 <= i
    && (if |a| == 0 then i == 0 else i <= |a| - 1)
    && SortedBetween(r, 0, i)
    && (0 < i ==> AllAtLeast(r, i, |a|, r[i - 1]))
  }

  /** Notification facts after `i` rounds. */
  predicate SelectLog(a: seq<int>, i: int, r: seq<int>, t: seq<Event>) {
    && 0 <= i
    && r == Replay(a, t)
    && AllWithin(t, 0, |a| - 1)
    && CompareCount(t) == RoundCompares(|a|, i)
    && SwapCount(t) <= i
    && OnlyInversionSwaps(a, t)
  }

  /** The exchange that ends round `i`, made only when the smallest value is
      not already in place. */
  function Place(r: seq<int>, i: int, m: int): seq<int>
    requires 0 <= i < |r| && 0 <= m < |r|
  {
    if m != i then Exchange(r, i, m) else r
  }

  function PlaceTrace(i: int, m: int): seq<Event> {
    if m != i then [Swap(i, m)] else []
  }

  /** The number of events of round `i` over `n` values: one comparison
      per later position, and the exchange when `m` is not `i`. */
  function RoundLength(n: int, i: int, m: int): int {
    n - i - 1 + |PlaceTrace(i, m)|
  }

  /** `block` is round `i` on the array `r` as it stood when the round
      began: a scan pairing the smallest position met so far with each later
      position, then the exchange moving the first smallest value `m` to `i`. */
  predicate SelectRound(r: seq<int>, i: int, m: int, block: seq<Event>) {
    && IsFirstMin(r, i, |r|, m)
    && |block| == RoundLength(|r|, i, m)
    && ScanLog(r, i, block[..|r| - i - 1])
    && block[|r| - i - 1..] == PlaceTrace(i, m)
  }

  /** The trace of rounds `0 .. |ms| - 1`, round `i` choosing `ms[i]`, each
      judged against the replay of the trace before it. */
  predicate SelectRounds(a: seq<int>, t: seq<Event>, ms: seq<int>)
    decreases |ms|
  {
    if ms == [] then t == []
    else
      var i := |ms| - 1;
      var k := RoundLength(|a|, i, ms[i]);
      && 0 <= k <= |t|
      && SelectRounds(a, t[..|t| - k], ms[..i])
      && SelectRound(Replay(a, t[..|t| - k]), i, ms[i], t[|t| - k..])
  }

  /** A scan and its exchange make one round. */
  lemma SelectRoundOf(r: seq<int>, i: int, m: int, scan: seq<Event>)
    requires IsFirstMin(r, i, |r|, m) && |scan| == |r| - i - 1 && ScanLog(r, i, scan)
    ensures SelectRound(r, i, m, scan + PlaceTrace(i, m))
  {
    var block := scan + PlaceTrace(i, m);
    assert block[..|scan|] == scan;
    assert block[|scan|..] == PlaceTrace(i, m);
  }

  /** Appending round `|ms|` to a trace of the rounds before it. */
  lemma RoundsSnoc(a: seq<int>, t: seq<Event>, ms: seq<int>, m: int, block: seq<Event>)
    requires SelectRounds(a, t, ms) && SelectRound(Replay(a, t), |ms|, m, block) && |a| == |Replay(a, t)|
    ensures SelectRounds(a, t + block, ms + [m]) == true
  {
    var u := t + block;
    assert (ms + [m])[..|ms|] == ms;
    assert u[..|u| - |block|] == t;
    assert u[|u| - |block|..] == block;
  }

  lemma AppendAssoc(t: seq<Event>, scan: seq<Event>, w: seq<Event>)
    ensures t + (scan + w) == t + scan + w
  {
  }

  /** Round `|ms|` appends its scan and its exchange. */
  lemma SelectRoundsStep(a: seq<int>, t: seq<Event>, ms: seq<int>, r: seq<int>, m: int, scan: seq<Event>)
    requires SelectRounds(a, t, ms) && r == Replay(a, t) && |ms| < |a| == |r|
    requires IsFirstMin(r, |ms|, |a|, m) && |scan| == |a| - |ms| - 1 && ScanLog(r, |ms|, scan)
    ensures SelectRounds(a, t + scan + PlaceTrace(|ms|, m), ms + [m])
  {
    SelectRoundOf(r, |ms|, m, scan);
    RoundsSnoc(a, t, ms, m, scan + PlaceTrace(|ms|, m));
    AppendAssoc(t, scan, PlaceTrace(|ms|, m));
  }

  lemma SelectStepOrder(a: seq<int>, i: int, r: seq<int>, m: int)
    requires SelectOrder(a, i, r) && i < |a| - 1 && IsFirstMin(r, i, |r|, m)
    ensures SelectOrder(a, i + 1, Place(r, i, m))
  {
    var r' := Place(r, i, m);
    assert forall k :: i < k < |r| ==> r'[k] == r[k] || (k == m && r'[k] == r[i]);
  }

  /** The scan of round `i` and its exchange extend the trace. */
  lemma SelectStepLog(a: seq<int>, i: int, r: seq<int>, t: seq<Event>, m: int, scan: seq<Event>)
    requires SelectLog(a, i, r, t) && i < |a| - 1 && |r| == |a|
    requires IsFirstMin(r, i, |r|, m) && |scan| == |r| - i - 1 && ScanLog(r, i, scan)
    ensures SelectLog(a, i + 1, Place(r, i, m), t + scan + PlaceTrace(i, m))
  {
    SelectScanLog(a, i, r, t, m, scan);
    SelectPlaceLog(a, i, r, t + scan, m);
  }

  lemma SelectScanLog(a: seq<int>, i: int, r: seq<int>, t: seq<Event>, m: int, scan: seq<Event>)
    requires SelectLog(a, i, r, t) && i < |a| - 1 && |r| == |a|
    requires IsFirstMin(r, i, |r|, m) && |scan| == |r| - i - 1 && ScanLog(r, i, scan)
    ensures r == Replay(a, t + scan)
    ensures AllWithin(t + scan, 0, |a| - 1)
    ensures CompareCount(t + scan) == RoundCompares(|a|, i + 1)
    ensures SwapCount(t + scan) <= i
    ensures OnlyInversionSwaps(a, t + scan)
  {
    OnlyCompares(scan);
    Concat(t, scan);
    ReplayCompares(r, scan);
    ReplayConcat(a, t, scan);
    ComparesOnly(r, scan);
    InversionConcat(a, t, scan);
  }

  lemma SelectPlaceLog(a: seq<int>, i: int, r: seq<int>, t: seq<Event>, m: int)
    requires r == Replay(a, t) && AllWithin(t, 0, |a| - 1) && OnlyInversionSwaps(a, t)
    requires 0 <= i < |a| - 1 && IsFirstMin(r, i, |r|, m)
    requires CompareCount(t) == RoundCompares(|a|, i + 1) && SwapCount(t) <= i
    ensures SelectLog(a, i + 1, Place(r, i, m), t + PlaceTrace(i, m))
  {
    PlaceReplay(a, i, r, t, m);
    PlaceCounts(a, i, r, t, m);
  }

  /** The closing exchange, when made, repairs an inversion: the smallest value
      sits strictly below the value at `i`. */
  lemma PlaceReplay(a: seq<int>, i: int, r: seq<int>, t: seq<Event>, m: int)
    requires r == Replay(a, t) && OnlyInversionSwaps(a, t)
    requires 0 <= i < |a| - 1 && IsFirstMin(r, i, |r|, m)
    ensures Place(r, i, m) == Replay(a, t + PlaceTrace(i, m))
    ensures OnlyInversionSwaps(a, t + PlaceTrace(i, m))
  {
    if m != i {
      Step(a, t, Swap(i, m));
    } else {
      assert t + PlaceTrace(i, m) == t;
    }
  }

  lemma PlaceCounts(a: seq<int>, i: int, r: seq<int>, t: seq<Event>, m: int)
    requires AllWithin(t, 0, |a| - 1)
    requires 0 <= i < |a| - 1 && 0 <= m < |a|
    requires CompareCount(t) == RoundCompares(|a|, i + 1) && SwapCount(t) <= i
    ensures AllWithin(t + PlaceTrace(i, m), 0, |a| - 1)
    ensures CompareCount(t + PlaceTrace(i, m)) == RoundCompares(|a|, i + 1)
    ensures SwapCount(t + PlaceTrace(i, m)) <= i + 1
  {
    if m != i {
      Snoc(t, Swap(i, m));
    } else {
      assert t + PlaceTrace(i, m) == t;
    }
  }

  /** The state of the outer loop after `i` rounds that chose `ms`. */
  predicate SelectState(a: seq<int>, i: int, r: seq<int>, t: seq<Event>, ms: seq<int>) {
    && SelectOrder(a, i, r)
    && SelectLog(a, i, r, t)
    && |ms| == i
    && SelectRounds(a, t, ms)
  }

  /** Round `i` of the outer loop: scan for the first smallest value of
      `r[i..]`, then exchange it into position `i` when it is not there.
      (`== true` keeps the loop state one fact for the verifier.) */
  method Round(a: seq<int>, i: int, r: seq<int>, t: seq<Event>, ghost ms: seq<int>)
    returns (r': seq<int>, t': seq<Event>, ghost ms': seq<int>)
    requires SelectState(a, i, r, t, ms) == true && i < |a| - 1
    ensures SelectState(a, i + 1, r', t', ms') == true
  {
    var m, scan := MinIndexFrom(r, i);
    SelectStepOrder(a, i, r, m);
    SelectStepLog(a, i, r, t, m, scan);
    SelectRoundsStep(a, t, ms, r, m, scan);
    r', t', ms' := Place(r, i, m), t + scan + PlaceTrace(i, m), ms + [m];
  }

  method SelectionSort(a: seq<int>) returns (r: seq<int>, trace: seq<Event>)
    ensures Sorted(r)
    ensures multiset(r) == multiset(a)
    ensures r == Replay(a, trace)
    ensures AllWithin(trace, 0, |a| - 1)
    ensures CompareCount(trace) == |a| * (|a| - 1) / 2
    ensures |a| > 0 ==> SwapCount(trace) < |a|
    ensures OnlyInversionSwaps(a, trace)
    ensures Sorted(a) ==> SwapCount(trace) == 0
    ensures exists ms :: |ms| == (if |a| == 0 then 0 else |a| - 1) && SelectRounds(a, trace, ms)
  {
    r, trace := a, [];
    var i := 0;
    ghost var ms: seq<int> := [];
    while i < |a| - 1
      invariant SelectState(a, i, r, trace, ms) == true
      decreases |a| - i
    {
      r, trace, ms := Round(a, i, r, trace, ms);
      i := i + 1;
    }
    SelectDone(a, r, trace, i);
    assert |ms| == (if |a| == 0 then 0 else |a| - 1);
  }

  lemma SelectDone(a: seq<int>, r: seq<int>, t: seq<Event>, i: int)
    requires SelectOrder(a, i, r) && SelectLog(a, i, r, t) && !(i < |a| - 1)
    ensures Sorted(r)
    ensures multiset(r) == multiset(a)
    ensures CompareCount(t) == |a| * (|a| - 1) / 2
    ensures |a| > 0 ==> SwapCount(t) < |a|
    ensures Sorted(a) ==> SwapCount(t) == 0
  {
    SelectSorted(a, r, i);
    ReplayMultiset(a, t);
    TotalCompares(|a|);
    if Sorted(a) {
      SortedInputNoSwaps(a, t);
    }
  }

  /** After the last round the sorted prefix, followed by the one value left,
      covers the whole array. */
  lemma SelectSorted(a: seq<int>, r: seq<int>, i: int)
    requires SelectOrder(a, i, r) && !(i < |a| - 1)
    ensures Sorted(r)
  {
    if |a| > 0 {
      assert i == |a| - 1;
      forall x, y | 0 <= x < y < |r|
        ensures r[x] <= r[y]
      {
        if y == i && 0 < i {
          assert r[x] <= r[i - 1];
        }
      }
    }
  }
}

=== FILE: seqs.dfy ===
/** Orderings, exchanges and multiset facts about the array being sorted.

    The array of the original program is a mutable `number[]` that every
    sort changes in place.  Here it is a `seq<int>` value instead: each
    operation takes the array it starts from and returns the array it
    leaves, and an in-place write becomes a new value (`s[k := v]`,
    `Exchange`).  Ranges are half-open, `[lo, hi)`, unless a comment says
    otherwise.
 */
module Seqs {

  /** `s[lo..hi]` is non-decreasing. */
  predicate SortedBetween(s: seq<int>, lo: int, hi: int)
    requires 0 <= lo <= hi <= |s|
  {
    forall p, q :: lo <= p < q < hi ==> s[p] <= s[q]
  }

  /** The whole of `s` is non-decreasing. */
  predicate Sorted(s: seq<int>) {
    SortedBetween(s, 0, |s|)
  }

  /** `r` and `s` have the same length and agree everywhere outside `[lo, hi)`. */
  predicate SameOutside(r: seq<int>, s: seq<int>, lo: int, hi: int) {
    |r| == |s| && forall k :: 0 <= k < |s| && !(lo <= k < hi) ==> r[k] == s[k]
  }

  /** Every element of `s[lo..hi]` is strictly below `v`. */
  predicate AllBelow(s: seq<int>, lo: int, hi: int, v: int)
    requires 0 <= lo <= hi <= |s|
  {
    forall k :: lo <= k < hi ==> s[k] < v
  }

  /** Every element of `s[lo..hi]` is at most `v`. */
  predicate AllAtMost(s: seq<int>, lo: int, hi: int, v: int)
    requires 0 <= lo <= hi <= |s|
  {
    forall k :: lo <= k < hi ==> s[k] <= v
  }

  /** Every element of `s[lo..hi]` is at least `v`. */
  predicate AllAtLeast(s: seq<int>, lo: int, hi: int, v: int)
    requires 0 <= lo <= hi <= |s|
  {
    forall k :: lo <= k < hi ==> v <= s[k]
  }

  /** The destructuring exchange `[arr[i], arr[j]] = [arr[j], arr[i]]`. */
  function Exchange(s: seq<int>, i: int, j: int): (r: seq<int>)
    requires 0 <= i < |s| && 0 <= j < |s|
    ensures |r| == |s| && r[i] == s[j] && r[j] == s[i]
    ensures forall k :: 0 <= k < |s| && k != i && k != j ==> r[k] == s[k]
  {
    s[i := s[j]][j := s[i]]
  }

  /** An exchange only moves values: it keeps the multiset. */
  lemma ExchangeMultiset(s: seq<int>, i: int, j: int)
    requires 0 <= i < |s| && 0 <= j < |s|
    ensures multiset(Exchange(s, i, j)) == multiset(s)
  {
  }

  /** Splitting a sequence at `lo` and `hi` splits its multiset. */
  lemma SplitMultiset(s: seq<int>, lo: int, hi: int)
    requires 0 <= lo <= hi <= |s|
    ensures multiset(s) == multiset(s[..lo]) + multiset(s[lo..hi]) + multiset(s[hi..])
  {
    assert s == s[..lo] + s[lo..hi] + s[hi..];
  }

  /** When two sequences agree outside `[lo, hi)`, they are permutations of
      each other exactly when their windows `[lo, hi)` are. */
  lemma WindowMultiset(r: seq<int>, s: seq<int>, lo: int, hi: int)
    requires 0 <= lo <= hi <= |s|
    requires SameOutside(r, s, lo, hi)
    ensures multiset(r) == multiset(s) <==> multiset(r[lo..hi]) == multiset(s[lo..hi])
  {
    assert r[..lo] == s[..lo];
    assert r[hi..] == s[hi..];
    SplitMultiset(r, lo, hi);
    SplitMultiset(s, lo, hi);
    var outside := multiset(s[..lo]) + multiset(s[hi..]);
    assert multiset(r[lo..hi]) == multiset(r) - outside;
    assert multiset(s[lo..hi]) == multiset(s) - outside;
  }

  /** After a window is permuted, each of its values came from somewhere
      in the old window. */
  lemma CameFrom(r: seq<int>, s: seq<int>, lo: int, hi: int, k: int)
    requires 0 <= lo <= k < hi <= |r| && |r| == |s|
    requires multiset(r[lo..hi]) == multiset(s[lo..hi])
    ensures exists p :: lo <= p < hi && s[p] == r[k]
  {
    assert r[k] == r[lo..hi][k - lo];
    assert r[k] in multiset(s[lo..hi]);
    var m :| 0 <= m < hi - lo && s[lo..hi][m] == r[k];
    assert s[lo + m] == r[k];
  }

  /** Permuting a window keeps an upper bound on its elements. */
  lemma BelowKept(r: seq<int>, s: seq<int>, lo: int, hi: int, v: int)
    requires 0 <= lo <= hi <= |r| && |r| == |s|
    requires multiset(r[lo..hi]) == multiset(s[lo..hi])
    requires AllBelow(s, lo, hi, v)
    ensures AllBelow(r, lo, hi, v)
  {
    forall k | lo <= k < hi
      ensures r[k] < v
    {
      CameFrom(r, s, lo, hi, k);
    }
  }

  /** Permuting a window keeps a non-strict upper bound on its elements. */
  lemma AtMostKept(r: seq<int>, s: seq<int>, lo: int, hi: int, v: int)
    requires 0 <= lo <= hi <= |r| && |r| == |s|
    requires multiset(r[lo..hi]) == multiset(s[lo..hi])
    requires AllAtMost(s, lo, hi, v)
    ensures AllAtMost(r, lo, hi, v)
  {
    forall k | lo <= k < hi
      ensures r[k] <= v
    {
      CameFrom(r, s, lo, hi, k);
    }
  }

  /** Permuting a window keeps a lower bound on its elements. */
  lemma AtLeastKept(r: seq<int>, s: seq<int>, lo: int, hi: int, v: int)
    requires 0 <= lo <= hi <= |r| && |r| == |s|
    requires multiset(r[lo..hi]) == multiset(s[lo..hi])
    requires AllAtLeast(s, lo, hi, v)
    ensures AllAtLeast(r, lo, hi, v)
  {
    forall k | lo <= k < hi
      ensures v <= r[k]
    {
      CameFrom(r, s, lo, hi, k);
    }
  }

  /** A permutation that moves values only inside `[lo, hi)` keeps an upper
      bound on that window. */
  lemma WindowAtMostKept(r: seq<int>, s: seq<int>, lo: int, hi: int, v: int)
    requires 0 <= lo <= hi <= |s|
    requires SameOutside(r, s, lo, hi) && multiset(r) == multiset(s)
    requires AllAtMost(s, lo, hi, v)
    ensures AllAtMost(r, lo, hi, v)
  {
    WindowMultiset(r, s, lo, hi);
    AtMostKept(r, s, lo, hi, v);
  }

  /** A permutation that moves values only inside `[lo, hi)` keeps a strict
      upper bound on that window. */
  lemma WindowBelowKept(r: seq<int>, s: seq<int>, lo: int, hi: int, v: int)
    requires 0 <= lo <= hi <= |s|
    requires SameOutside(r, s, lo, hi) && multiset(r) == multiset(s)
    requires AllBelow(s, lo, hi, v)
    ensures AllBelow(r, lo, hi, v)
  {
    WindowMultiset(r, s, lo, hi);
    BelowKept(r, s, lo, hi, v);
  }

  /** A permutation that moves values only inside `[lo, hi)` keeps a lower
      bound on that window. */
  lemma WindowAtLeastKept(r: seq<int>, s: seq<int>, lo: int, hi: int, v: int)
    requires 0 <= lo <= hi <= |s|
    requires SameOutside(r, s, lo, hi) && multiset(r) == multiset(s)
    requires AllAtLeast(s, lo, hi, v)
    ensures AllAtLeast(r, lo, hi, v)
  {
    WindowMultiset(r, s, lo, hi);
    AtLeastKept(r, s, lo, hi, v);
  }
}

=== FILE: traces.dfy ===
/** What a trace of notifications says about the array.

    For the exchange-based sorts every `onSwap(i, j)` is sent right after
    the values at `i` and `j` were exchanged.  Replaying a trace from the
    input, exchanging at every `Swap` and doing nothing at every `Compare`,
    must then rebuild the array the caller sees; the sorts state this as
    `r == Replay(a, trace)`.
 */
module Traces {
  import opened Events
  import opened Seqs

  /** The effect of one notification on the array. */
  function Apply(s: seq<int>, e: Event): seq<int> {
    match e
    case Compare(_, _) => s
    case Swap(i, j) => if 0 <= i < |s| && 0 <= j < |s| then Exchange(s, i, j) else s
  }

  /** The array obtained by performing the exchanges of `t`, in order, on `s`. */
  function Replay(s: seq<int>, t: seq<Event>): (r: seq<int>)
    ensures |r| == |s|
    decreases |t|
  {
    if t == [] then s else Apply(Replay(s, t[..|t| - 1]), t[|t| - 1])
  }

  /** Replaying a trace only moves values around: the multiset is kept. */
  lemma {:induction false} ReplayMultiset(s: seq<int>, t: seq<Event>)
    ensures multiset(Replay(s, t)) == multiset(s)
    decreases |t|
  {
    if t != [] {
      var front, e := t[..|t| - 1], t[|t| - 1];
      ReplayMultiset(s, front);
      var mid := Replay(s, front);
      if e.Swap? && 0 <= e.i < |mid| && 0 <= e.j < |mid| {
        ExchangeMultiset(mid, e.i, e.j);
      }
    }
  }

  /** Replaying one more event applies it to the replayed array. */
  lemma ReplaySnoc(s: seq<int>, t: seq<Event>, e: Event)
    ensures Replay(s, t + [e]) == Apply(Replay(s, t), e)
  {
    assert (t + [e])[..|t|] == t;
  }

  /** Replaying two traces one after the other is replaying their concatenation. */
  lemma {:induction false} ReplayConcat(s: seq<int>, t1: seq<Event>, t2: seq<Event>)
    ensures Replay(s, t1 + t2) == Replay(Replay(s, t1), t2)
    decreases |t2|
  {
    if t2 == [] {
      assert t1 + t2 == t1;
    } else {
      var front, e := t2[..|t2| - 1], t2[|t2| - 1];
      assert t2 == front + [e];
      assert t1 + t2 == (t1 + front) + [e];
      ReplaySnoc(s, t1 + front, e);
      ReplayConcat(s, t1, front);
      ReplaySnoc(Replay(s, t1), front, e);
    }
  }

  /** A trace without exchanges leaves the array as it was. */
  lemma {:induction false} ReplayCompares(s: seq<int>, t: seq<Event>)
    requires SwapCount(t) == 0
    ensures Replay(s, t) == s
    decreases |t|
  {
    if t != [] {
      var front, e := t[..|t| - 1], t[|t| - 1];
      assert t == front + [e];
      Snoc(front, e);
      ReplayCompares(s, front);
    }
  }

  /** `e`, applied to `s`, exchanges two distinct positions whose values are
      out of order (the value at the lower position is strictly greater). */
  predicate RepairsInversion(s: seq<int>, e: Event) {
    e.Swap? ==>
      && 0 <= e.i < |s| && 0 <= e.j < |s| && e.i != e.j
      && (e.i < e.j ==> s[e.i] > s[e.j])
      && (e.j < e.i ==> s[e.j] > s[e.i])
  }

  /** Every exchange of `t`, replayed from `s`, repairs an inversion of the
      array at the moment it happens. */
  predicate OnlyInversionSwaps(s: seq<int>, t: seq<Event>)
    decreases |t|
  {
    t == [] ||
    (OnlyInversionSwaps(s, t[..|t| - 1]) && RepairsInversion(Replay(s, t[..|t| - 1]), t[|t| - 1]))
  }

  /** How replay, the counters and the inversion property grow when one event is sent. */
  lemma Step(s: seq<int>, t: seq<Event>, e: Event)
    ensures Replay(s, t + [e]) == Apply(Replay(s, t), e)
    ensures CompareCount(t + [e]) == CompareCount(t) + (if e.Compare? then 1 else 0)
    ensures SwapsOf(t + [e]) == SwapsOf(t) + (if e.Swap? then [e] else [])
    ensures OnlyInversionSwaps(s, t + [e]) <==> OnlyInversionSwaps(s, t) && RepairsInversion(Replay(s, t), e)
  {
    assert (t + [e])[..|t|] == t;
    Snoc(t, e);
  }

  /** On an input that is already sorted, a trace whose every exchange repairs
      an inversion holds no exchange at all: it sends no `onSwap`. */
  lemma {:induction false} SortedInputNoSwaps(s: seq<int>, t: seq<Event>)
    requires Sorted(s)
    requires OnlyInversionSwaps(s, t)
    ensures SwapCount(t) == 0
    decreases |t|
  {
    if t != [] {
      var front, e := t[..|t| - 1], t[|t| - 1];
      assert t == front + [e];
      SortedInputNoSwaps(s, front);
      ReplayCompares(s, front);
      Snoc(front, e);
      if e.Swap? {
        assert false;
      }
    }
  }

  /** The inversion property of a concatenation: the second trace is judged
      from the array the first one leaves. */
  lemma {:induction false} InversionConcat(s: seq<int>, t1: seq<Event>, t2: seq<Event>)
    requires OnlyInversionSwaps(s, t1)
    requires OnlyInversionSwaps(Replay(s, t1), t2)
    ensures OnlyInversionSwaps(s, t1 + t2)
    decreases |t2|
  {
    if t2 == [] {
      assert t1 + t2 == t1;
    } else {
      var front, e := t2[..|t2| - 1], t2[|t2| - 1];
      assert t2 == front + [e];
      assert t1 + t2 == (t1 + front) + [e];
      InversionConcat(s, t1, front);
      Step(s, t1 + front, e);
      ReplayConcat(s, t1, front);
    }
  }

  /** A trace of comparisons alone leaves the array as it was and has no
      exchange to judge. */
  lemma {:induction false} ComparesOnly(s: seq<int>, t: seq<Event>)
    requires forall k :: 0 <= k < |t| ==> t[k].Compare?
    ensures Replay(s, t) == s
    ensures OnlyInversionSwaps(s, t)
    decreases |t|
  {
    if t != [] {
      ComparesOnly(s, t[..|t| - 1]);
    }
  }
}
